=== FILE: README.md ===
# Autonomy bootcamp: workers, telemetry merge, owner process and command test

This project models the drone-autonomy pipeline of the bootcamp repository in
Dafny. The pipeline has four workers:

- a heartbeat sender;
- a heartbeat receiver;
- a telemetry gatherer that merges MAVLink ATTITUDE and LOCAL_POSITION_NED
  messages into one record;
- a command worker that turns telemetry records into commands.

The project also models the owner process `main` that creates, starts and
shuts down these workers, and the command worker's integration test: its
queue helpers, its bounded connection retry, and the mock drone that
validates the COMMAND_LONG messages it receives.

The worker controller and the queues come from a library that is not part of
this model, so both are abstract:

- A controller is an exit flag plus a pause flag. A worker's view of the exit
  flag is the sequence of values its checks return (`flags`). When that
  sequence runs out, the observation window ends and the worker is still
  RUNNING.
- A queue is a FIFO sequence in which `None` is the "no more input" sentinel.
  A `get` with a timeout is one entry of a sequence of results, where `None`
  means the call timed out or raised.
- A MAVLink link is the sequence of what successive `recv_match` calls
  returned. The end of the sequence stands for the deadline.
- Every `run` whose code is not in the core (`Command.run`,
  `HeartbeatReceiver.run`, `HeartbeatSender.run`) is an uninterpreted
  function of the iteration number and, for `Command.run`, of the item as
  well, so a call may keep state between iterations. Its result is a
  `RunOutcome`: the `(success, value)` pair it returned, or `Raised`.

A worker run is a `Trace` with four parts: its events (exit checks, pause
checks, gets, runs, puts, sleeps), its output queue, the number of units of
work it started, and its final state (`Running`, or `Exited` with a cause).
A run of the owner's `main` is a sequence of steps. Each step has a phase,
from creating the worker properties (0) to clearing the exit flag (7).

Modules:

- `Wrappers`: `Option` and `Present`.
- `Controller`: the two flags, and `FirstExit`.
- `WorkerLoop`: the shared event vocabulary and the ordering predicates.
- `Telemetry`: the merge loop of `Telemetry.run`, and `create`.
- One module per worker: `CommandWorker`, `TelemetryWorker`,
  `HeartbeatReceiverWorker`, `HeartbeatSenderWorker`.
- `Phases`: generic runs built from blocks of consecutive phases.
- `BootcampMain`: the owner process.
- `TestCommand`: the command worker's integration test.
- `CommandDrone`: the mock drone's validator.

## Model

| member | source | states |
|---|---|---|
| Controller.RequestExit | bootcamp_main.py:198 | raises the exit flag and keeps the pause flag |
| Controller.ClearExit | bootcamp_main.py:214-216 | lowers the exit flag and keeps the pause flag |
| Controller.RequestExitIdempotent | bootcamp_main.py:214-216 | requesting exit twice equals once; clearing after a request restores a controller that had not requested exit |
| Controller.FirstExit | modules/command/command_worker.py:69 | the number of iterations a worker starts: every exit check before it returned false, and the one at it (if any) returned true |
| WorkerLoop.SetupFailure | modules/command/command_worker.py:44-47 | a worker whose setup failed has exited with no events, no output and no work |
| WorkerLoop.FirstNone | modules/command/command_worker.py:71-73 | the position of the first sentinel: every entry before it is an item |
| Telemetry.LatestIsLast | modules/telemetry/telemetry.py:133-137 | the latest value of a kind is absent iff no receive carries that kind; otherwise it comes from a receive that no later receive of the kind replaces |
| Telemetry.Gap | modules/telemetry/telemetry.py:126-132 | the first empty or failed receive: every receive before it produced a message |
| Telemetry.ScanStep | modules/telemetry/telemetry.py:124-137 | one receive before the pair is complete updates the latest attitude or position as the message type says, and no shorter prefix was complete |
| Telemetry.ScanFromSpec | modules/telemetry/telemetry.py:124-137 | loop invariant: the loop holds the latest of each kind among the receives it made, no earlier prefix was complete, and it stops at the deadline, right after the first empty receive, or at the receive that completes the pair |
| Telemetry.Scan | modules/telemetry/telemetry.py:121-137 | the whole loop: it reads no further than one past the first empty receive, holds the latest attitude and position it read, and stops at the first receive that completes the pair |
| Telemetry.Merge | modules/telemetry/telemetry.py:144-160 | the timestamp is the larger of the two messages' timestamps; position and velocity come from the position message, angles and rates from the attitude message |
| Telemetry.Run | modules/telemetry/telemetry.py:139-162 | succeeds iff the receives read hold both kinds, and then returns the merge of the latest of each |
| Telemetry.RunSucceedsIff | modules/telemetry/telemetry.py:139-141 | `run` succeeds iff an ATTITUDE and a LOCAL_POSITION_NED both arrive before the first empty receive |
| Telemetry.SeenBeforeGap | modules/telemetry/telemetry.py:124-137 | a kind arrives before the first empty receive iff the latest-value fold over that prefix finds it |
| Telemetry.CompleteAtScanEnd | modules/telemetry/telemetry.py:124-132 | the receives the loop made hold both kinds iff the receives before the first empty one do |
| Telemetry.ScanFromSameMessages | modules/telemetry/telemetry.py:126-132 | two links whose receives give the same messages (with exceptions folded into "no message") give the same loop result |
| Telemetry.RecvFailedIsTimeout | modules/telemetry/telemetry.py:128-132 | a receive that raises has the same effect on `run` as a receive that times out |
| Telemetry.ScanFromInsertOther | modules/telemetry/telemetry.py:133-137 | inserting a message of another type anywhere leaves the loop's latest attitude and position unchanged |
| Telemetry.RunIgnoresOtherTypes | modules/telemetry/telemetry.py:133-137 | a message of any other type, wherever it arrives, does not change the result of `run` |
| Telemetry.Construct | modules/telemetry/telemetry.py:96-108 | construction succeeds iff the private key is passed, and keeps the timeout |
| Telemetry.Create | modules/telemetry/telemetry.py:85-94 | `create` reports success iff it returns an object, and it always succeeds with the given timeout |
| CommandWorker.Loop | modules/command/command_worker.py:68-86 | the loop reads up to and including the first sentinel, but not past the first raised exit flag; it exits on the sentinel iff the sentinel comes before the raised flag, and on the exit flag iff the flag comes first; the output is the successful non-empty results of the items read, in order, each from the `run` call of its own iteration |
| CommandWorker.Worker | modules/command/command_worker.py:44-66 | a logger or `Command` creation failure returns before reading any input, and this is the only way to end with a setup failure; otherwise the worker is the loop from iteration 0, so it exits on the sentinel iff the sentinel comes before the first raised flag, on the exit flag iff the flag comes first, and reads exactly the items up to the earlier of the two |
| CommandWorker.IterationOrder | modules/command/command_worker.py:69-86 | an iteration that reads an item begins with exactly these four events, in order: an exit check that found the flag low, a pause check, a get that read an item, and the run; after them it has at most one more event, a put, which comes only after a run that returned, and there is one only when a value is forwarded |
| CommandWorker.IterationCounts | modules/command/command_worker.py:74-86 | an iteration runs its item exactly once and puts exactly the values it forwards |
| CommandWorker.LoopOrder | modules/command/command_worker.py:69-86 | in every run: every low exit flag is directly followed by a pause check, and every pause check directly follows one; every get directly follows a pause check; every run directly follows a get that read an item; every put directly follows a run that returned; nothing follows a raised exit flag; every item read is run once (the sentinel is not run); and there is one put per output entry |
| CommandWorker.RaisedIsFailure | modules/command/command_worker.py:82-86 | an exception from `run` yields the same output as the failure `(False, None)` |
| CommandWorker.OutcomesDoNotStopLoop | modules/command/command_worker.py:74-86 | which items are read, and how the worker ends, do not depend on what `run` returns or raises |
| CommandWorker.RaisingRunIsCaught | modules/command/command_worker.py:74-86 | a `run` that raises changes neither the output, nor the work done, nor the final state, compared with the run whose exceptions are replaced by failures |
| TelemetryWorker.Loop | modules/telemetry/telemetry_worker.py:57-68 | one call per iteration until the exit flag is raised; the output is the data of the successful calls, in order |
| TelemetryWorker.Worker | modules/telemetry/telemetry_worker.py:37-68 | a logger failure returns before any call or output, and is the only way to end with a setup failure; otherwise the worker is the loop from iteration 0: it makes one call per iteration until the first raised exit flag, forwards the successes in order, and ends with an exit request iff a raised flag was observed |
| TelemetryWorker.IterationOrder | modules/telemetry/telemetry_worker.py:58-68 | an iteration begins with exactly these three events, in order: an exit check that found the flag low, a pause check, and the call; after them it has at most one more event, a put, which comes only after a call that returned, and there is one only when the call succeeded |
| TelemetryWorker.IterationCounts | modules/telemetry/telemetry_worker.py:60-65 | an iteration makes exactly one call and puts exactly what it forwards |
| TelemetryWorker.LoopOrder | modules/telemetry/telemetry_worker.py:58-68 | in every run: every low exit flag is directly followed by a pause check; every pause check directly follows a low exit flag; every call directly follows a pause check; a put follows only a call that returned; nothing follows a raised exit flag; there is one call per iteration; and there is one put per output entry |
| TelemetryWorker.RaisedIsFailure | modules/telemetry/telemetry_worker.py:60-64 | an exception from `run` puts nothing, exactly like a failed call, and the loop does the same amount of work |
| TelemetryWorker.OutcomeOf | modules/telemetry/telemetry_worker.py:61-65 | a call of `Telemetry.run` returns, and it reports success iff it holds a record |
| TelemetryWorker.SuccessesAreRecords | modules/telemetry/telemetry_worker.py:65-68 | when every successful call holds a record, every forwarded entry is a record |
| TelemetryWorker.OutputHasNoSentinel | modules/telemetry/telemetry_worker.py:60-68 | when every call is `Telemetry.run` (or raises), the worker never puts `None`, so it never sends the command worker a sentinel |
| HeartbeatReceiverWorker.Loop | modules/heartbeat/heartbeat_receiver_worker.py:63-71 | exactly one state is put per iteration: what the call reported, or "Disconnected" when it raised; only the exit flag ends the loop |
| HeartbeatReceiverWorker.Worker | modules/heartbeat/heartbeat_receiver_worker.py:38-71 | a logger or receiver creation failure returns before any state is put, and is the only way to end with a setup failure; otherwise the worker is the loop from iteration 0: one state per iteration until the first raised exit flag, the state of iteration i being what its call reported, or "Disconnected" when the call raised, and it ends with an exit request iff a raised flag was observed |
| HeartbeatReceiverWorker.OkFlagIgnored | modules/heartbeat/heartbeat_receiver_worker.py:67-71 | the state a call reports is forwarded whatever its ok flag |
| HeartbeatReceiverWorker.IterationOrder | modules/heartbeat/heartbeat_receiver_worker.py:64-71 | an iteration is four events: an exit check that found the flag low, a pause check, the call, and then one put, which follows the call whether it raised or not |
| HeartbeatReceiverWorker.IterationCounts | modules/heartbeat/heartbeat_receiver_worker.py:66-71 | an iteration makes exactly one call and exactly one put |
| HeartbeatReceiverWorker.LoopOrder | modules/heartbeat/heartbeat_receiver_worker.py:64-71 | in every run: every low exit flag is directly followed by a pause check; every call directly follows a pause check; every call, raising or not, is directly followed by a put; every put directly follows a call; nothing follows a raised exit flag; and the number of calls and the number of puts both equal the number of iterations |
| HeartbeatSenderWorker.Loop | modules/heartbeat/heartbeat_sender_worker.py:55-63 | one send attempt per iteration until the exit flag is raised, and no output queue |
| HeartbeatSenderWorker.Worker | modules/heartbeat/heartbeat_sender_worker.py:36-63 | a logger or sender creation failure returns before any send attempt, and is the only way to end with a setup failure; otherwise the worker is the loop from iteration 0: one send attempt per iteration until the first raised exit flag, no output, and it ends with an exit request iff a raised flag was observed |
| HeartbeatSenderWorker.IterationOrder | modules/heartbeat/heartbeat_sender_worker.py:56-63 | an iteration is a pause check after a low exit flag, then exactly one send attempt, then one sleep, and that send attempt is the only thing the sleep follows |
| HeartbeatSenderWorker.LoopOrder | modules/heartbeat/heartbeat_sender_worker.py:55-63 | in every run: every low exit flag is directly followed by a pause check; every send directly follows a pause check; every send is directly followed by a sleep; every sleep directly follows a send; nothing follows a raised exit flag; and the number of send attempts equals the number of iterations |
| HeartbeatSenderWorker.SendErrorsDoNotStop | modules/heartbeat/heartbeat_sender_worker.py:58-62 | send failures never end the loop: it runs just as long and ends the same way whatever the sends raised |
| BootcampMain.Position | bootcamp_main.py:169 | each kind of worker has one place in the creation order sender, receiver, telemetry, command |
| BootcampMain.DrainsEndToStart | bootcamp_main.py:202-204 | the queues are drained from the end of the pipeline to its start: a queue whose producer comes later is drained first |
| BootcampMain.CreateEach | bootcamp_main.py:168-175 | creation goes through the workers in order and returns at the first failure: it succeeds iff every creation did, it records exactly the creations before the failure, and the next worker's creation is the one that failed |
| BootcampMain.StateLoop | bootcamp_main.py:185-195 | the wait logs the states the gets delivered, skips timed-out gets, and stops right after the first "Disconnected" or at the deadline; "Disconnected" is logged at most once, as the last state |
| BootcampMain.TimeoutsSwallowed | bootcamp_main.py:188-195 | a timed-out get, wherever it happens, changes nothing that `main` logs |
| BootcampMain.BlocksPhases | bootcamp_main.py:105-216 | in a successful run, block i of steps holds steps of phase i only |
| BootcampMain.SuccessStarts | bootcamp_main.py:168-191 | in a successful run, the managers are created in order sender, receiver, telemetry, command and started in that order, and the logged states are those the wait read |
| BootcampMain.SuccessStops | bootcamp_main.py:197-216 | in a successful run, exit is requested once, the queues are drained telemetry-to-command first, every manager is joined once in creation order, and exit is cleared once |
| BootcampMain.MainCode | bootcamp_main.py:61-175 | `main` returns 0 or -1, and -1 iff the configuration, the main logger, or the properties or manager of some worker could not be created |
| BootcampMain.MainBlocks | bootcamp_main.py:56-222 | every run of `main` is a sequence of blocks of consecutive phases; a run that returns -1 has at most the properties block and the managers block, and the managers block is present iff the failure was a manager creation |
| BootcampMain.MainOrder | bootcamp_main.py:105-216 | phases never go backwards: properties before managers, managers before starts, starts before logged states, the exit request after them, drains after the request, joins after the drains, clearing last; a run that returns -1 has only creation steps, so no worker is started |
| BootcampMain.MainStarts | bootcamp_main.py:168-191 | a run that returns 0 creates the four managers in order, starts them in that order, and logs exactly the states the wait read |
| BootcampMain.MainStops | bootcamp_main.py:197-216 | a run that returns 0 requests exit once, drains the two queues end to start, joins every manager once in creation order, clears exit once, and leaves the controller with both flags low |
| BootcampMain.MainAborts | bootcamp_main.py:168-175 | a run that returns -1 has created the managers of the workers before the failing one, in order, and none after; when the properties all succeeded, the next manager's creation is the one that failed |
| TestCommand.PutQueue | tests/integration/test_command.py:91-94 | every item, in list order, followed by exactly one sentinel |
| TestCommand.PutQueueSentinel | tests/integration/test_command.py:91-94 | the final sentinel is the first one a reader meets, and the values before it are exactly the items |
| TestCommand.ReadQueue | tests/integration/test_command.py:74-81 | `read_queue` returns iff some get raised, and it logs the non-`None` items delivered before the first failed get, in order |
| TestCommand.SentinelSkipped | tests/integration/test_command.py:79-80 | a `None` item is skipped: reading it changes neither what is logged nor whether the reader returns |
| TestCommand.StopsAtFailure | tests/integration/test_command.py:75-78 | the reader stops at the first failed get: nothing after it is read |
| TestCommand.ReadAll | tests/integration/test_command.py:74-81 | a reader that finds every entry of a queue and then times out logs the queue's items and returns |
| TestCommand.ReadsWhatWasPut | tests/integration/test_command.py:74-94 | round trip: reading back what `put_queue` put logs the items, in order, without the sentinel |
| TestCommand.ReadsWorkerOutput | tests/integration/test_command.py:67-81 | reading the command worker's output queue until it stays empty logs everything the worker put, in order |
| TestCommand.Stop | tests/integration/test_command.py:58-64 | `stop` raises the exit flag and changes nothing else on the controller |
| TestCommand.ConnectFrom | tests/integration/test_command.py:128-136 | the connection is the first attempt that does not raise, and it fails iff every one of the 10 attempts raises |
| TestCommand.Attempts | tests/integration/test_command.py:128-133 | `main` makes between 1 and 10 attempts; every attempt before the last one raised, and the last one raised only when none connected |
| TestCommand.TestMain | tests/integration/test_command.py:102-269 | the test returns -1 iff the configuration or logger failed or all 10 connection attempts raised, and then runs no worker; otherwise it runs the command worker on the queue `put_queue` fills with the path, and returns 0 iff that worker returns; while the worker is running it has returned nothing |
| TestCommand.SentinelLast | modules/command/command_worker.py:69-73 | on a queue whose only sentinel is its last entry, the worker reads every entry and exits on the sentinel when the exit flag is not seen first; otherwise it stops at the first raised flag |
| TestCommand.PathConsumedInOrder | tests/integration/test_command.py:249-264 | fed by `put_queue`, the command worker reads all path items in order and then stops at the sentinel, unless the exit flag is seen first; its output is the forwarded results of exactly the items read |
| TestCommand.TestReturns | tests/integration/test_command.py:246-269 | once connected, the test returns 0 iff the worker fails to set up, or reads the sentinel (all path items read before the first raised flag), or sees a raised flag; with no raised flag before the sentinel it always returns |
| CommandDrone.Check | tests/integration/mock_drones/command_drone.py:50-75 | the code of one message is that of its first failing check in the drone's order: -2 for a timeout or another type, -3 for another command, -4 for a nonzero confirmation, -5/-6 for the altitude command's target and speed, -7/-8 for the yaw command's relative flag and turning speed; 0 iff the message is valid |
| CommandDrone.FirstInvalid | tests/integration/mock_drones/command_drone.py:48-76 | the first of the 26 trials whose message is not valid: every trial before it was valid |
| CommandDrone.TrialsFrom | tests/integration/mock_drones/command_drone.py:48-76 | the trial loop returns the check code of the first invalid message, or 0 when all 26 are valid |
| CommandDrone.Drone | tests/integration/mock_drones/command_drone.py:37-84 | -1 iff the logger fails; 0 iff all 26 messages are valid and no further command arrives; -9 iff all 26 are valid and another command arrives |
| CommandDrone.FirstFailureDecides | tests/integration/mock_drones/command_drone.py:50-75 | the first invalid message decides the code, whatever follows it, and that code is below -1 |
| CommandDrone.TooFewMessages | tests/integration/mock_drones/command_drone.py:48-52 | fewer valid messages than trials, then silence: the drone reports a timeout, -2 |
| CommandDrone.ReadsAtMostTrialsPlusOne | tests/integration/mock_drones/command_drone.py:48-84 | the drone reads at most 27 messages: anything after them does not change its code |
| CommandDrone.SameReceives | tests/integration/mock_drones/command_drone.py:48-76 | two links that agree on the first 27 receives give the same trial result |

## Left out

- Concurrency: processes, threads, `threading.Timer`, blocking `get`/`put`, and blocking in `check_pause`. Each worker is a sequential trace. When the test's timer fires is folded into the exit-flag observations `flags`.
- The worker controller, queue wrapper, `fill_and_drain_queue` and worker manager are not part of this model. They are abstract flags, sequences and fallible-creation booleans; their internals are not stated.
- Queue capacities (32, 64 and 128) are not modelled: queues are unbounded, so a `put` never blocks.
- Network I/O: the pymavlink connections, `recv_match`, the `*_send` calls and `wait_heartbeat` are input sequences or uninterpreted outcomes. The `type="COMMAND_LONG"` filter of the mock drone's `recv_match` is not modelled; the drone's own type check is.
- Wall-clock deadlines and `time.sleep`: each deadline is the end of a finite sequence. The sender's sleep is an event with no duration.
- Loggers, and the formatting of `TelemetryData.__str__` and of `str(state)`: logging is an event, or it is left out where nothing depends on it.
- `Command`, `HeartbeatReceiver` and `HeartbeatSender` are unimplemented stubs. Their `create` results are booleans, and their `run` results are arbitrary outcomes indexed by iteration (and, for `Command.run`, by item).
- The telemetry, heartbeat-sender and heartbeat-receiver mock drones: timing schedules and floating-point trigonometry.
- Floating point: parameters and fields are `real`, so float32 and float64 rounding are not modelled.
- CommandDrone.Check: NaN parameters are not modelled. In the drone, `abs(x - t) > FLOAT_TOLERANCE` is false for a NaN `x`, so a NaN altitude, speed, relative flag or turning speed passes its check (tests/integration/mock_drones/command_drone.py:63-74); over `real` every parameter is a number, so the model rejects exactly the out-of-tolerance numbers.
- The path data of the command test, and the connection setup steps after the retry loop (`heartbeat_send`): the path is an arbitrary sequence.
- Worker-invocation arity: bootcamp_main.py:159-160 gives the command worker no output queue, but modules/command/command_worker.py:28-29 requires one. This mismatch is not modelled, and the command worker is modelled with its output queue.
- Telemetry.Create: models the object construction only. The private key is always passed, so `create` always succeeds. An exception from elsewhere during construction is not modelled.

=== FILE: bootcamp_main.dfy ===
/**
 The owner process. `main` loads the configuration and the main logger,
 describes the four workers, creates a manager for each, starts them, logs the
 heartbeat states the receiver reports until the drone disconnects or the
 deadline passes, and then shuts everything down: exit request, queue drains
 from end to start, joins, and finally clearing the exit flag.

 A run of `main` is the sequence of its observable steps. Every step has a
 phase, and the phases of a successful run never go backwards.
 */
module BootcampMain {

  import opened Wrappers
  import opened Controller
  import HeartbeatReceiverWorker
  import opened Phases

  /** The four kinds of worker `main` runs, one process each. */
  datatype Kind = HeartbeatSender | HeartbeatReceiver | TelemetryGatherer | CommandIssuer

  /** The order in which the worker properties and the managers are created, started and joined. */
  const Workers: seq<Kind> := [HeartbeatSender, HeartbeatReceiver, TelemetryGatherer, CommandIssuer]

  /** A kind's place in `Workers`. */
  function Position(w: Kind): (n: nat)
    ensures n < |Workers| && Workers[n] == w
  {
    match w
    case HeartbeatSender => 0
    case HeartbeatReceiver => 1
    case TelemetryGatherer => 2
    case CommandIssuer => 3
  }

  /** The two queues: telemetry to command, and heartbeat receiver to main. */
  datatype Channel = TelemetryToCommand | HeartbeatToMain

  /** The worker that puts on a queue. */
  function Producer(c: Channel): Kind
  {
    match c
    case TelemetryToCommand => TelemetryGatherer
    case HeartbeatToMain => HeartbeatReceiver
  }

  /** The order in which `main` fills and drains the queues. */
  const DrainOrder: seq<Channel> := [TelemetryToCommand, HeartbeatToMain]

  /**
   The queues are drained from the end of the pipeline to its start: a queue
   whose producer comes later in `Workers` is drained first.
   */
  lemma DrainsEndToStart()
    ensures forall i, j :: 0 <= i < j < |DrainOrder| ==>
      Position(Producer(DrainOrder[i])) > Position(Producer(DrainOrder[j]))
  {
  }

  /** What is being created: a worker's properties, or its manager. */
  datatype Stage = Properties | Manager

  /** The observable steps of `main`. */
  datatype Event =
    | Created(stage: Stage, worker: Kind)
    | Started(worker: Kind)
    | StateLogged(state: string)
    | ExitRequested
    | Drained(channel: Channel)
    | Joined(worker: Kind)
    | ExitCleared

  /** Where a step belongs in the life of `main`. */
  function Phase(e: Event): nat
  {
    match e
    case Created(Properties, _) => 0
    case Created(Manager, _) => 1
    case Started(_) => 2
    case StateLogged(_) => 3
    case ExitRequested => 4
    case Drained(_) => 5
    case Joined(_) => 6
    case ExitCleared => 7
  }

  /**
   Creating one thing per kind in `ws`, in order, returning at the first
   failure. Returns the steps of the creations that succeeded and whether all
   of them did.
   */
  function CreateEach(ws: seq<Kind>, ok: Kind -> bool, stage: Stage): (r: (seq<Event>, bool))
    ensures r.1 <==> forall i :: 0 <= i < |ws| ==> ok(ws[i])
    ensures |r.0| <= |ws|
    ensures forall i :: 0 <= i < |r.0| ==> r.0[i] == Created(stage, ws[i]) && ok(ws[i])
    ensures r.1 ==> |r.0| == |ws|
    ensures !r.1 ==> |r.0| < |ws| && !ok(ws[|r.0|])
  {
    if |ws| == 0 then ([], true)
    else if !ok(ws[0]) then ([], false)
    else
      var rest := CreateEach(ws[1..], ok, stage);
      ([Created(stage, ws[0])] + rest.0, rest.1)
  }

  /**
   Main's wait for the drone. Each entry of `gets` is one `get` with a
   timeout: the state the receiver reported, or `None` when the get timed out
   (the exception is swallowed). The end of `gets` is the deadline. Returns
   the states logged and the number of gets made.
   */
  function StateLoop(gets: seq<Option<string>>): (r: (seq<string>, nat))
    ensures r.1 <= |gets|
    ensures r.0 == Present(gets[..r.1])
    ensures forall i :: 0 <= i < r.1 - 1 ==> gets[i] != Some(HeartbeatReceiverWorker.Disconnected)
    ensures r.1 < |gets| ==> 0 < r.1 && gets[r.1 - 1] == Some(HeartbeatReceiverWorker.Disconnected)
    ensures forall i :: 0 <= i < |r.0| - 1 ==> r.0[i] != HeartbeatReceiverWorker.Disconnected
  {
    if |gets| == 0 then ([], 0)
    else if gets[0] == Some(HeartbeatReceiverWorker.Disconnected) then
      assert gets[..1] == [gets[0]];
      ([HeartbeatReceiverWorker.Disconnected], 1)
    else
      var rest := StateLoop(gets[1..]);
      assert gets[..1 + rest.1] == [gets[0]] + gets[1..][..rest.1];
      PresentConcat([gets[0]], gets[1..][..rest.1]);
      ((if gets[0].Some? then [gets[0].value] else []) + rest.0, 1 + rest.1)
  }

  /** `gets` with one more timed-out get before position `k`. */
  function InsertTimeout(gets: seq<Option<string>>, k: nat): seq<Option<string>>
    requires k <= |gets|
  {
    gets[..k] + [None] + gets[k..]
  }

  /** A timed-out get changes nothing that `main` logs, wherever it happens. */
  lemma {:induction false} TimeoutsSwallowed(gets: seq<Option<string>>, k: nat)
    requires k <= |gets|
    ensures StateLoop(InsertTimeout(gets, k)).0 == StateLoop(gets).0
  {
    if k == 0 {
      assert InsertTimeout(gets, 0)[1..] == gets;
    } else {
      assert InsertTimeout(gets, k)[0] == gets[0];
      assert InsertTimeout(gets, k)[1..] == InsertTimeout(gets[1..], k - 1);
      TimeoutsSwallowed(gets[1..], k - 1);
    }
  }

  /** What `main` did, what it returned, and the controller it leaves behind. */
  datatype Outcome = Outcome(events: seq<Event>, code: int, controller: Controller)

  /** The steps of a run in which every creation succeeded, one block per phase. */
  function Blocks(states: seq<string>): seq<seq<Event>>
  {
    [ seq(|Workers|, i requires 0 <= i < |Workers| => Created(Properties, Workers[i])),
      seq(|Workers|, i requires 0 <= i < |Workers| => Created(Manager, Workers[i])),
      seq(|Workers|, i requires 0 <= i < |Workers| => Started(Workers[i])),
      seq(|states|, i requires 0 <= i < |states| => StateLogged(states[i])),
      [ExitRequested],
      seq(|DrainOrder|, i requires 0 <= i < |DrainOrder| => Drained(DrainOrder[i])),
      seq(|Workers|, i requires 0 <= i < |Workers| => Joined(Workers[i])),
      [ExitCleared] ]
  }

  /** Blocks 4 to 7 of a successful run hold the steps of phases 4 to 7. */
  lemma BlocksPhasesLate(states: seq<string>)
    ensures Phased(Blocks(states)[4..], Phase, 4)
  {
    var bs := Blocks(states);
    assert Phased(bs[8..], Phase, 8);
    PhasedFrom(bs, Phase, 7, 7);
    PhasedFrom(bs, Phase, 6, 6);
    PhasedFrom(bs, Phase, 5, 5);
    PhasedFrom(bs, Phase, 4, 4);
  }

  /** Blocks 2 to 7 of a successful run hold the steps of phases 2 to 7. */
  lemma BlocksPhasesMiddle(states: seq<string>)
    ensures Phased(Blocks(states)[2..], Phase, 2)
  {
    var bs := Blocks(states);
    BlocksPhasesLate(states);
    PhasedFrom(bs, Phase, 3, 3);
    PhasedFrom(bs, Phase, 2, 2);
  }

  /** Block i of a successful run holds the steps of phase i. */
  lemma BlocksPhases(states: seq<string>)
    ensures Phased(Blocks(states), Phase, 0)
  {
    var bs := Blocks(states);
    BlocksPhasesMiddle(states);
    PhasedFrom(bs, Phase, 1, 1);
    PhasedFrom(bs, Phase, 0, 0);
    assert bs[0..] == bs;
  }

  /** The steps of each phase of a successful run up to the wait, written out. */
  lemma SuccessStarts(states: seq<string>)
    ensures var ev := Flatten(Blocks(states));
      && OfPhase(ev, Phase, 1) == [Created(Manager, HeartbeatSender), Created(Manager, HeartbeatReceiver),
                                   Created(Manager, TelemetryGatherer), Created(Manager, CommandIssuer)]
      && OfPhase(ev, Phase, 2) == [Started(HeartbeatSender), Started(HeartbeatReceiver),
                                   Started(TelemetryGatherer), Started(CommandIssuer)]
      && |OfPhase(ev, Phase, 3)| == |states|
      && (forall i :: 0 <= i < |states| ==> OfPhase(ev, Phase, 3)[i] == StateLogged(states[i]))
  {
    BlocksPhases(states);
    FlattenSelect(Blocks(states), Phase, 0, 1);
    FlattenSelect(Blocks(states), Phase, 0, 2);
    FlattenSelect(Blocks(states), Phase, 0, 3);
  }

  /** The steps of each phase of a successful run's shutdown, written out. */
  lemma SuccessStops(states: seq<string>)
    ensures var ev := Flatten(Blocks(states));
      && OfPhase(ev, Phase, 4) == [ExitRequested]
      && OfPhase(ev, Phase, 5) == [Drained(TelemetryToCommand), Drained(HeartbeatToMain)]
      && OfPhase(ev, Phase, 6) == [Joined(HeartbeatSender), Joined(HeartbeatReceiver),
                                   Joined(TelemetryGatherer), Joined(CommandIssuer)]
      && OfPhase(ev, Phase, 7) == [ExitCleared]
  {
    BlocksPhases(states);
    FlattenSelect(Blocks(states), Phase, 0, 4);
    FlattenSelect(Blocks(states), Phase, 0, 5);
    FlattenSelect(Blocks(states), Phase, 0, 6);
    FlattenSelect(Blocks(states), Phase, 0, 7);
  }

  /**
   `main`. `configOk` and `loggerOk` say whether the configuration and the
   main logger could be set up; `propertiesOk(w)` and `managerOk(w)` whether
   creating the properties or the manager of worker `w` succeeded; `gets`
   is what the heartbeat queue delivered before the deadline.
   */
  function Main(configOk: bool, loggerOk: bool, propertiesOk: Kind -> bool, managerOk: Kind -> bool,
                gets: seq<Option<string>>): (r: Outcome)
  {
    if !configOk || !loggerOk then Outcome([], -1, Initial)
    else
      var props := CreateEach(Workers, propertiesOk, Properties);
      if !props.1 then Outcome(Flatten([props.0]), -1, Initial)
      else
        var managers := CreateEach(Workers, managerOk, Manager);
        if !managers.1 then Outcome(Flatten([props.0, managers.0]), -1, Initial)
        else Outcome(Flatten(Blocks(StateLoop(gets).0)), 0, ClearExit(RequestExit(Initial)))
  }

  /** A check over `Workers` is a check over every kind. */
  lemma EveryKind(ok: Kind -> bool)
    ensures (forall i :: 0 <= i < |Workers| ==> ok(Workers[i])) <==> (forall w :: ok(w))
  {
    if forall i :: 0 <= i < |Workers| ==> ok(Workers[i]) {
      forall w ensures ok(w) {
        assert Workers[Position(w)] == w;
      }
    }
  }

  /**
   `main` returns 0 or -1, and it returns -1 exactly when the configuration,
   the main logger, or the properties or manager of some worker could not be
   created.
   */
  lemma MainCode(configOk: bool, loggerOk: bool, propertiesOk: Kind -> bool, managerOk: Kind -> bool,
                 gets: seq<Option<string>>)
    ensures var r := Main(configOk, loggerOk, propertiesOk, managerOk, gets);
      && (r.code == 0 || r.code == -1)
      && (r.code == -1 <==>
            !(configOk && loggerOk && (forall w :: propertiesOk(w)) && (forall w :: managerOk(w))))
  {
    EveryKind(propertiesOk);
    EveryKind(managerOk);
  }

  /** Every run is made of blocks of consecutive phases, starting with the properties. */
  lemma MainBlocks(configOk: bool, loggerOk: bool, propertiesOk: Kind -> bool, managerOk: Kind -> bool,
                   gets: seq<Option<string>>)
    returns (blocks: seq<seq<Event>>)
    ensures var r := Main(configOk, loggerOk, propertiesOk, managerOk, gets);
      && r.events == Flatten(blocks)
      && Phased(blocks, Phase, 0)
      && (r.code == 0 ==> blocks == Blocks(StateLoop(gets).0))
      && (r.code == -1 ==> |blocks| <= 2)
      && (r.code == -1 && configOk && loggerOk && CreateEach(Workers, propertiesOk, Properties).1 ==>
            |blocks| == 2)
      && (|blocks| == 2 ==>
            blocks[1] == CreateEach(Workers, managerOk, Manager).0 && !CreateEach(Workers, managerOk, Manager).1)
  {
    if !configOk || !loggerOk {
      blocks := [];
    } else {
      var props := CreateEach(Workers, propertiesOk, Properties);
      if !props.1 {
        blocks := [props.0];
        assert blocks[1..] == [];
      } else {
        var managers := CreateEach(Workers, managerOk, Manager);
        if !managers.1 {
          blocks := [props.0, managers.0];
          assert blocks[1..] == [managers.0] && blocks[1..][1..] == [];
        } else {
          blocks := Blocks(StateLoop(gets).0);
          BlocksPhases(StateLoop(gets).0);
        }
      }
    }
  }

  /**
   The order of `main`'s steps. Phases never go backwards: all properties
   are created before any manager, all managers before any start, every
   start before the first logged state, the exit request after the last
   logged state, every drain after the exit request, every join after every
   drain, and clearing the exit flag last. A run that returns -1 has only
   creation steps: no worker is started.
   */
  lemma MainOrder(configOk: bool, loggerOk: bool, propertiesOk: Kind -> bool, managerOk: Kind -> bool,
                  gets: seq<Option<string>>)
    ensures var r := Main(configOk, loggerOk, propertiesOk, managerOk, gets);
      && Monotone(r.events, Phase)
      && (r.code == -1 ==> forall k :: 0 <= k < |r.events| ==> Phase(r.events[k]) <= 1)
  {
    var blocks := MainBlocks(configOk, loggerOk, propertiesOk, managerOk, gets);
    FlattenMonotone(blocks, Phase, 0);
    FlattenRange(blocks, Phase, 0);
  }

  /**
   The start of a successful run: the managers are created in the order
   sender, receiver, telemetry, command and started in that order, and the
   states logged are the ones the wait loop read.
   */
  lemma MainStarts(configOk: bool, loggerOk: bool, propertiesOk: Kind -> bool, managerOk: Kind -> bool,
                   gets: seq<Option<string>>)
    ensures var r := Main(configOk, loggerOk, propertiesOk, managerOk, gets);
      var states := StateLoop(gets).0;
      r.code == 0 ==>
        && OfPhase(r.events, Phase, 1) == [Created(Manager, HeartbeatSender), Created(Manager, HeartbeatReceiver),
                                    Created(Manager, TelemetryGatherer), Created(Manager, CommandIssuer)]
        && OfPhase(r.events, Phase, 2) == [Started(HeartbeatSender), Started(HeartbeatReceiver),
                                    Started(TelemetryGatherer), Started(CommandIssuer)]
        && |OfPhase(r.events, Phase, 3)| == |states|
        && (forall i :: 0 <= i < |states| ==> OfPhase(r.events, Phase, 3)[i] == StateLogged(states[i]))
  {
    SuccessStarts(StateLoop(gets).0);
  }

  /**
   The end of a successful run: the exit is requested once, the queues are
   drained in `DrainOrder`, every manager is joined once, in the order of
   creation, and the exit flag is cleared once, leaving the controller with
   both flags low.
   */
  lemma MainStops(configOk: bool, loggerOk: bool, propertiesOk: Kind -> bool, managerOk: Kind -> bool,
                  gets: seq<Option<string>>)
    ensures var r := Main(configOk, loggerOk, propertiesOk, managerOk, gets);
      r.code == 0 ==>
        && OfPhase(r.events, Phase, 4) == [ExitRequested]
        && OfPhase(r.events, Phase, 5) == [Drained(TelemetryToCommand), Drained(HeartbeatToMain)]
        && OfPhase(r.events, Phase, 6) == [Joined(HeartbeatSender), Joined(HeartbeatReceiver),
                                    Joined(TelemetryGatherer), Joined(CommandIssuer)]
        && OfPhase(r.events, Phase, 7) == [ExitCleared]
        && !r.controller.exitRequested && !r.controller.paused
  {
    SuccessStops(StateLoop(gets).0);
  }

  /**
   A run that returns -1 has created the managers of the workers before the
   failing one, in order, and nothing after them.
   */
  lemma MainAborts(configOk: bool, loggerOk: bool, propertiesOk: Kind -> bool, managerOk: Kind -> bool,
                   gets: seq<Option<string>>)
    ensures var r := Main(configOk, loggerOk, propertiesOk, managerOk, gets);
      var managers := OfPhase(r.events, Phase, 1);
      r.code == -1 ==>
        && |managers| < |Workers|
        && (forall i :: 0 <= i < |managers| ==> managers[i] == Created(Manager, Workers[i]))
        && (configOk && loggerOk && (forall w :: propertiesOk(w)) ==> !managerOk(Workers[|managers|]))
  {
    EveryKind(propertiesOk);
    var r := Main(configOk, loggerOk, propertiesOk, managerOk, gets);
    var blocks := MainBlocks(configOk, loggerOk, propertiesOk, managerOk, gets);
    if r.code == -1 {
      if |blocks| == 2 {
        FlattenSelect(blocks, Phase, 0, 1);
      } else {
        FlattenRange(blocks, Phase, 0);
        OfPhaseAbsent(r.events, Phase, 1);
      }
    }
  }
}

=== FILE: command_drone.dfy ===
/**
 The mock drone that grades the command worker. It reads `Trials`
 COMMAND_LONG messages, checks each one in a fixed order and returns the code
 of the first check that fails; after that many valid messages it returns -9
 when yet another command arrives and 0 otherwise.

 The link is the sequence of results of `recv_match` with a timeout: the
 message received, or `None` when the call timed out. Calls past the end of
 the sequence time out.
 */
module CommandDrone {

  import opened Wrappers

  /** How many commands the drone expects. */
  const Trials: nat := 26

  /** How far a parameter may be from its expected value. */
  const FloatTolerance: real := 0.000001

  /** The expected parameters: target altitude, climb speed, relative-angle flag, turning speed. */
  const TargetZ: real := 30.0
  const ZSpeed: real := 1.0
  const Relative: real := 1.0
  const TurningSpeed: real := 5.0

  /** MAV_CMD_CONDITION_CHANGE_ALT and MAV_CMD_CONDITION_YAW in the MAVLink common message set. */
  const ChangeAlt: int := 113
  const Yaw: int := 115

  /** A received message: a COMMAND_LONG with its fields, or a message of another type. */
  datatype Message =
    | CommandLong(command: int, confirmation: int,
                  param1: real, param2: real, param3: real, param4: real,
                  param5: real, param6: real, param7: real)
    | OtherMessage(msgType: string)

  function Abs(x: real): (r: real)
    ensures 0.0 <= r && (r == x || r == -x)
  {
    if x < 0.0 then -x else x
  }

  /** `x` is within the tolerance of `target`. */
  predicate Near(x: real, target: real)
  {
    Abs(x - target) <= FloatTolerance
  }

  /** The received value is a COMMAND_LONG message. */
  predicate IsCommand(m: Option<Message>)
  {
    m.Some? && m.value.CommandLong?
  }

  /**
   What the drone accepts: a COMMAND_LONG with confirmation 0 that either
   changes altitude to the target at the expected speed, or turns by a
   relative angle at the expected turning speed.
   */
  predicate Valid(m: Option<Message>)
  {
    && IsCommand(m)
    && m.value.confirmation == 0
    && ((m.value.command == ChangeAlt && Near(m.value.param7, TargetZ) && Near(m.value.param1, ZSpeed))
        || (m.value.command == Yaw && Near(m.value.param4, Relative) && Near(m.value.param2, TurningSpeed)))
  }

  /**
   The checks of one received value, in the drone's order; 0 when all pass.
   Each code is given by the first failing check: the type, the command,
   the confirmation, then the two parameters of the command in question.
   */
  function Check(m: Option<Message>): (code: int)
    ensures code == 0 <==> Valid(m)
    ensures code == -2 <==> !IsCommand(m)
    ensures code == -3 <==> IsCommand(m) && m.value.command != ChangeAlt && m.value.command != Yaw
    ensures code == -4 <==>
      IsCommand(m) && (m.value.command == ChangeAlt || m.value.command == Yaw) && m.value.confirmation != 0
    ensures code == -5 <==>
      IsCommand(m) && m.value.command == ChangeAlt && m.value.confirmation == 0 && !Near(m.value.param7, TargetZ)
    ensures code == -6 <==>
      IsCommand(m) && m.value.command == ChangeAlt && m.value.confirmation == 0 && Near(m.value.param7, TargetZ)
      && !Near(m.value.param1, ZSpeed)
    ensures code == -7 <==>
      IsCommand(m) && m.value.command == Yaw && m.value.confirmation == 0 && !Near(m.value.param4, Relative)
    ensures code == -8 <==>
      IsCommand(m) && m.value.command == Yaw && m.value.confirmation == 0 && Near(m.value.param4, Relative)
      && !Near(m.value.param2, TurningSpeed)
    ensures code == 0 || -8 <= code <= -2
  {
    if !IsCommand(m) then -2
    else
      var c := m.value;
      if c.command != ChangeAlt && c.command != Yaw then -3
      else if c.confirmation != 0 then -4
      else if c.command == ChangeAlt then
        if !Near(c.param7, TargetZ) then -5
        else if !Near(c.param1, ZSpeed) then -6
        else 0
      else
        if !Near(c.param4, Relative) then -7
        else if !Near(c.param2, TurningSpeed) then -8
        else 0
  }

  /** The result of receive call `i`: what arrived, or a timeout past the end of the link. */
  function Receive(link: seq<Option<Message>>, i: nat): Option<Message>
  {
    if i < |link| then link[i] else None
  }

  /** The first of receive calls `i` .. `Trials - 1` whose message is not valid, or `Trials`. */
  function FirstInvalid(link: seq<Option<Message>>, i: nat): (n: nat)
    requires i <= Trials
    decreases Trials - i
    ensures i <= n <= Trials
    ensures forall j :: i <= j < n ==> Valid(Receive(link, j))
    ensures n < Trials ==> !Valid(Receive(link, n))
  {
    if i == Trials || !Valid(Receive(link, i)) then i else FirstInvalid(link, i + 1)
  }

  /** The `for` loop from trial `i` on: the code of the first failing check, or 0. */
  function TrialsFrom(link: seq<Option<Message>>, i: nat): (code: int)
    requires i <= Trials
    decreases Trials - i
    ensures code == 0 || -8 <= code <= -2
    ensures code == (if FirstInvalid(link, i) < Trials then Check(Receive(link, FirstInvalid(link, i))) else 0)
  {
    if i == Trials then 0
    else
      var c := Check(Receive(link, i));
      if c != 0 then c else TrialsFrom(link, i + 1)
  }

  /**
   The drone's `main` once connected: -1 when its logger cannot be created,
   otherwise the code of the trials, then -9 when one more command arrives.
   */
  function Drone(loggerOk: bool, link: seq<Option<Message>>): (code: int)
    ensures -9 <= code <= 0
    ensures code == -1 <==> !loggerOk
    ensures code == 0 <==>
      loggerOk && (forall j :: 0 <= j < Trials ==> Valid(Receive(link, j))) && !IsCommand(Receive(link, Trials))
    ensures code == -9 <==>
      loggerOk && (forall j :: 0 <= j < Trials ==> Valid(Receive(link, j))) && IsCommand(Receive(link, Trials))
  {
    if !loggerOk then -1
    else
      var c := TrialsFrom(link, 0);
      if c != 0 then c
      else if IsCommand(Receive(link, Trials)) then -9
      else 0
  }

  /** The first invalid message decides the code, whatever follows it. */
  lemma FirstFailureDecides(link: seq<Option<Message>>)
    requires FirstInvalid(link, 0) < Trials
    ensures Drone(true, link) == Check(Receive(link, FirstInvalid(link, 0)))
    ensures Drone(true, link) < -1
  {
  }

  /** Fewer valid messages than trials, then silence: the drone reports a timeout. */
  lemma {:induction false} TooFewMessages(link: seq<Option<Message>>)
    requires |link| < Trials
    requires forall j :: 0 <= j < |link| ==> Valid(link[j])
    ensures Drone(true, link) == -2
  {
    assert forall j :: 0 <= j < |link| ==> Valid(Receive(link, j));
    assert !Valid(Receive(link, |link|));
  }

  /** The drone reads at most `Trials + 1` messages: anything after them is ignored. */
  lemma {:induction false} ReadsAtMostTrialsPlusOne(link: seq<Option<Message>>, rest: seq<Option<Message>>)
    requires |link| == Trials + 1
    ensures Drone(true, link + rest) == Drone(true, link)
  {
    forall j: nat | j <= Trials
      ensures Receive(link + rest, j) == Receive(link, j)
    {
      assert (link + rest)[j] == link[j];
    }
    SameReceives(link + rest, link, 0);
  }

  /** Two links that agree on the first `Trials + 1` receive calls give the same trials. */
  lemma {:induction false} SameReceives(a: seq<Option<Message>>, b: seq<Option<Message>>, i: nat)
    requires i <= Trials
    requires forall j: nat :: j <= Trials ==> Receive(a, j) == Receive(b, j)
    decreases Trials - i
    ensures TrialsFrom(a, i) == TrialsFrom(b, i)
  {
    if i < Trials {
      assert Receive(a, i) == Receive(b, i);
      SameReceives(a, b, i + 1);
    }
  }
}

=== FILE: command_worker.dfy ===
/**
 `command_worker`: reads telemetry records from its input queue and hands each
 to `Command.run`, putting the successful, non-empty results on its output
 queue. It stops when the exit flag is raised or when it reads the `None`
 sentinel.

 The input queue is the sequence of items `get` returns, in order. When the
 sequence runs out, the worker is blocked in `get` and still RUNNING.
 What `Command.run` does in iteration i on item d is `run(i, d)`: the call
 may keep state across iterations and need not give the same outcome twice
 for equal items.
 */
module CommandWorker {

  import opened Wrappers
  import opened Controller
  import opened WorkerLoop

  /** What a run's result puts on the output queue: the value, when it succeeded with one. */
  function Forward<O>(o: RunOutcome<Option<O>>): seq<O>
  {
    if o.Returned? && o.success && o.value.Some? then [o.value.value] else []
  }

  /**
   The output a sequence of items read in iterations k, k + 1, ... produces:
   the values of the successful, non-empty results of running each item, in
   item order. A sentinel among the items produces nothing.
   */
  function Forwarded<D, O>(items: seq<Option<D>>, run: (nat, D) -> RunOutcome<Option<O>>, k: nat): seq<O>
  {
    if |items| == 0 then []
    else (if items[0].Some? then Forward(run(k, items[0].value)) else []) + Forwarded(items[1..], run, k + 1)
  }

  /** The smaller of two counts. */
  function Min(a: nat, b: nat): nat
  {
    if a <= b then a else b
  }

  /**
   The main loop from iteration k on. Item i of `input` is read in iteration
   k + i, whose exit check returns `flags[i]`. The worker reads up to and
   including the first sentinel, but not past the first raised exit flag or
   the end of the queue.
   */
  function Loop<D, O>(flags: seq<bool>, input: seq<Option<D>>, run: (nat, D) -> RunOutcome<Option<O>>, k: nat): (r: Trace<O>)
    decreases |flags|
    ensures var f, s := FirstExit(flags), FirstNone(input);
      && (r.state == Exited(SentinelRead) <==> s < f && s < |input|)
      && (r.state == Exited(ExitRequested) <==> f < |flags| && f <= s)
      && r.state != Exited(SetupFailed)
      && r.work == (if s < f && s < |input| then s + 1 else Min(f, s))
    ensures r.work <= |input|
    ensures r.output == Forwarded(input[..r.work], run, k)
  {
    if |flags| == 0 then Trace([], [], 0, Running)
    else if flags[0] then Trace([ExitChecked(true)], [], 0, Exited(ExitRequested))
    else if |input| == 0 then Trace(Prologue, [], 0, Running)
    else if input[0].None? then Trace(Prologue + [Got(true)], [], 1, Exited(SentinelRead))
    else
      var o := run(k, input[0].value);
      var rest := Loop(flags[1..], input[1..], run, k + 1);
      assert input[..1 + rest.work] == [input[0]] + input[1..][..rest.work];
      Trace(Iteration(o) + rest.events,
            Forward(o) + rest.output, 1 + rest.work, rest.state)
  }

  /**
   `command_worker`: when the logger or the `Command` object cannot be
   created, it returns before reading any input; otherwise it runs the loop
   from the first iteration.
   */
  function Worker<D, O>(loggerOk: bool, commandOk: bool, flags: seq<bool>, input: seq<Option<D>>,
                        run: (nat, D) -> RunOutcome<Option<O>>): (r: Trace<O>)
    ensures !(loggerOk && commandOk) <==> r.state == Exited(SetupFailed)
    ensures !(loggerOk && commandOk) ==> r.events == [] && r.work == 0 && r.output == []
    ensures loggerOk && commandOk ==> r == Loop(flags, input, run, 0)
    ensures loggerOk && commandOk ==> var f, s := FirstExit(flags), FirstNone(input);
      && (r.state == Exited(SentinelRead) <==> s < f && s < |input|)
      && (r.state == Exited(ExitRequested) <==> f < |flags| && f <= s)
      && r.work == (if s < f && s < |input| then s + 1 else Min(f, s))
    ensures r.work <= |input|
    ensures r.output == Forwarded(input[..r.work], run, 0)
  {
    if !loggerOk || !commandOk then SetupFailure() else Loop(flags, input, run, 0)
  }

  /** The events of one iteration that read an item. */
  function Iteration<O>(o: RunOutcome<Option<O>>): seq<Event>
  {
    Prologue + [Got(false), Ran(o.Raised?)] + (if |Forward(o)| > 0 then [Put] else [])
  }

  /**
   One iteration that reads an item checks the exit flag, pauses, gets and
   runs, in that order, and then puts at most once.
   */
  lemma IterationOrder<O>(o: RunOutcome<Option<O>>)
    ensures var ev := Iteration(o);
      PauseAfterExitCheck(ev) && PauseAfterLowExit(ev) && GetAfterPause(ev) && RunAfterGet(ev) && PutAfterReturn(ev)
    ensures forall k :: 0 <= k < |Iteration(o)| ==> Iteration(o)[k] != ExitChecked(true)
    ensures |Iteration(o)| == 4 + |Forward(o)|
    ensures Iteration(o)[..4] == [ExitChecked(false), PauseChecked, Got(false), Ran(o.Raised?)]
    ensures |Forward(o)| > 0 ==> Iteration(o)[4] == Put
  {
    if |Forward(o)| > 0 {
      assert Iteration(o) == [ExitChecked(false), PauseChecked, Got(false), Ran(false), Put];
    } else {
      assert Iteration(o) == [ExitChecked(false), PauseChecked, Got(false), Ran(o.Raised?)];
    }
  }

  /** One iteration runs its item once and puts exactly the values it forwards. */
  lemma IterationCounts<O>(o: RunOutcome<Option<O>>)
    ensures Runs(Iteration(o)) == 1 && Puts(Iteration(o)) == |Forward(o)|
  {
    var r := Ran(o.Raised?);
    var tail: seq<Event> := if |Forward(o)| > 0 then [Put] else [];
    assert Iteration(o) == [ExitChecked(false)] + ([PauseChecked] + ([Got(false)] + ([r] + tail)));
    CountsCons(ExitChecked(false), [PauseChecked] + ([Got(false)] + ([r] + tail)));
    CountsCons(PauseChecked, [Got(false)] + ([r] + tail));
    CountsCons(Got(false), [r] + tail);
    CountsCons(r, tail);
    if |Forward(o)| > 0 {
      CountsCons(Put, []);
    }
  }

  /**
   The order of events in every run: the exit flag is checked before every
   item and a low one is followed by `check_pause`, `check_pause` precedes
   every `get`, `run` follows a `get` that read an item, a `put` follows a
   `run` that returned, and nothing follows an exit. Every item read is run
   once, and there is one `put` per output entry.
   */
  lemma {:induction false} LoopOrder<D, O>(flags: seq<bool>, input: seq<Option<D>>,
                                           run: (nat, D) -> RunOutcome<Option<O>>, k: nat)
    decreases |flags|
    ensures var ev := Loop(flags, input, run, k).events;
      PauseAfterExitCheck(ev) && PauseAfterLowExit(ev) && GetAfterPause(ev) && RunAfterGet(ev)
      && PutAfterReturn(ev) && ExitLast(ev)
    ensures var t := Loop(flags, input, run, k);
      Runs(t.events) == (if t.state == Exited(SentinelRead) then t.work - 1 else t.work)
      && Puts(t.events) == |t.output|
  {
    if |flags| == 0 || flags[0] || |input| == 0 || input[0].None? {
      FinalOrder(Loop(flags, input, run, k).events);
      FinalCounts(Loop(flags, input, run, k).events);
    } else {
      var o := run(k, input[0].value);
      var rest := Loop(flags[1..], input[1..], run, k + 1).events;
      assert Loop(flags, input, run, k).events == Iteration(o) + rest;
      LoopOrder(flags[1..], input[1..], run, k + 1);
      IterationOrder(o);
      IterationCounts(o);
      RunsConcat(Iteration(o), rest);
      PutsConcat(Iteration(o), rest);
      ConcatPauseAfterExitCheck(Iteration(o), rest);
      ConcatPauseAfterLowExit(Iteration(o), rest);
      ConcatGetAfterPause(Iteration(o), rest);
      ConcatRunAfterGet(Iteration(o), rest);
      ConcatPutAfterReturn(Iteration(o), rest);
      ConcatExitLast(Iteration(o), rest);
    }
  }

  /** A `run` in which every exception is replaced by the failure `(False, None)`. */
  function TameRun<D, O>(run: (nat, D) -> RunOutcome<Option<O>>): (nat, D) -> RunOutcome<Option<O>>
  {
    (i: nat, d: D) => Tame(run(i, d))
  }

  /** An exception from `run` yields exactly what a failed run yields: no output. */
  lemma {:induction false} RaisedIsFailure<D, O>(items: seq<Option<D>>, run: (nat, D) -> RunOutcome<Option<O>>, k: nat)
    ensures Forwarded(items, run, k) == Forwarded(items, TameRun(run), k)
  {
    if |items| > 0 {
      RaisedIsFailure(items[1..], run, k + 1);
    }
  }

  /**
   Which items are read, and how the worker ends, do not depend on what `run`
   returns or raises: a raising `run` never stops the loop.
   */
  lemma OutcomesDoNotStopLoop<D, O>(flags: seq<bool>, input: seq<Option<D>>,
                                    run1: (nat, D) -> RunOutcome<Option<O>>, run2: (nat, D) -> RunOutcome<Option<O>>,
                                    k: nat)
    ensures Loop(flags, input, run1, k).work == Loop(flags, input, run2, k).work
    ensures Loop(flags, input, run1, k).state == Loop(flags, input, run2, k).state
  {
  }

  /** Exceptions from `run` change nothing but the events' raised flags. */
  lemma RaisingRunIsCaught<D, O>(flags: seq<bool>, input: seq<Option<D>>, run: (nat, D) -> RunOutcome<Option<O>>, k: nat)
    ensures Loop(flags, input, run, k).output == Loop(flags, input, TameRun(run), k).output
    ensures Loop(flags, input, run, k).work == Loop(flags, input, TameRun(run), k).work
    ensures Loop(flags, input, run, k).state == Loop(flags, input, TameRun(run), k).state
  {
    RaisedIsFailure(input[..Loop(flags, input, run, k).work], run, k);
  }
}

=== FILE: controller.dfy ===
/**
 The worker controller, seen from the outside: an exit flag and a pause flag.
 How the flags are shared between processes is not part of this model; a
 worker's view of the exit flag is the sequence of values its checks return.
 */
module Controller {

  datatype Controller = Controller(exitRequested: bool, paused: bool)

  /** A fresh controller: nothing requested, not paused. */
  const Initial := Controller(false, false)

  /** `request_exit`: raises the exit flag and leaves the pause flag alone. */
  function RequestExit(c: Controller): (r: Controller)
    ensures r.exitRequested
    ensures r.paused == c.paused
  {
    c.(exitRequested := true)
  }

  /** `clear_exit`: lowers the exit flag so the controller can be reused. */
  function ClearExit(c: Controller): (r: Controller)
    ensures !r.exitRequested
    ensures r.paused == c.paused
  {
    c.(exitRequested := false)
  }

  /** Requesting exit twice is the same as requesting it once; clearing undoes it. */
  lemma RequestExitIdempotent(c: Controller)
    ensures RequestExit(RequestExit(c)) == RequestExit(c)
    ensures ClearExit(RequestExit(c)) == ClearExit(c)
    ensures !c.exitRequested ==> ClearExit(RequestExit(c)) == c
  {
  }

  /**
   The number of exit checks that return false before the first one that
   returns true, i.e. how many loop iterations a worker gets to start.
   Equals |flags| when no check in the trace sees the flag raised.
   */
  function FirstExit(flags: seq<bool>): (n: nat)
    ensures n <= |flags|
    ensures forall i :: 0 <= i < n ==> !flags[i]
    ensures n < |flags| ==> flags[n]
  {
    if |flags| == 0 then 0
    else if flags[0] then 0
    else 1 + FirstExit(flags[1..])
  }
}

=== FILE: heartbeat_receiver_worker.dfy ===
/**
 `heartbeat_receiver_worker`: calls `HeartbeatReceiver.run` once per
 iteration and puts the connection state it reports on its output queue. An
 exception from the call puts "Disconnected" instead. Only the exit flag ends it.

 What `run` does in iteration i is `report(i)`.
 */
module HeartbeatReceiverWorker {

  import opened Controller
  import opened WorkerLoop

  const Disconnected: string := "Disconnected"

  /** The state one iteration puts: the reported state whatever its ok flag, or "Disconnected". */
  function StateOf(o: RunOutcome<string>): string
  {
    match o
    case Returned(_, state) => state
    case Raised => Disconnected
  }

  function Iteration(o: RunOutcome<string>): seq<Event>
  {
    Prologue + [Ran(o.Raised?), Put]
  }

  /**
   The main loop from iteration k on: one state on the output queue per
   iteration, the state of iteration i being what its call reported.
   */
  function Loop(flags: seq<bool>, report: nat -> RunOutcome<string>, k: nat): (r: Trace<string>)
    decreases |flags|
    ensures r.work == FirstExit(flags)
    ensures r.state == if FirstExit(flags) < |flags| then Exited(ExitRequested) else Running
    ensures |r.output| == r.work
    ensures forall i :: 0 <= i < |r.output| ==> r.output[i] == StateOf(report(k + i))
  {
    if |flags| == 0 then Trace([], [], 0, Running)
    else if flags[0] then Trace([ExitChecked(true)], [], 0, Exited(ExitRequested))
    else
      var rest := Loop(flags[1..], report, k + 1);
      Trace(Iteration(report(k)) + rest.events, [StateOf(report(k))] + rest.output, 1 + rest.work, rest.state)
  }

  /** A logger or `HeartbeatReceiver` creation failure returns before any state is put. */
  function Worker(loggerOk: bool, receiverOk: bool, flags: seq<bool>, report: nat -> RunOutcome<string>): (r: Trace<string>)
    ensures !(loggerOk && receiverOk) <==> r.state == Exited(SetupFailed)
    ensures !(loggerOk && receiverOk) ==> r.events == [] && r.output == [] && r.work == 0
    ensures loggerOk && receiverOk ==> r == Loop(flags, report, 0)
    ensures loggerOk && receiverOk ==> |r.output| == r.work == FirstExit(flags)
    ensures loggerOk && receiverOk ==> r.state == if FirstExit(flags) < |flags| then Exited(ExitRequested) else Running
    ensures loggerOk && receiverOk ==> forall i :: 0 <= i < |r.output| ==> r.output[i] == StateOf(report(i))
    ensures loggerOk && receiverOk ==> forall i :: 0 <= i < |r.output| && report(i).Raised? ==> r.output[i] == Disconnected
  {
    if !loggerOk || !receiverOk then SetupFailure() else Loop(flags, report, 0)
  }

  /** The ok flag of a call never changes what is put. */
  lemma OkFlagIgnored(ok1: bool, ok2: bool, state: string)
    ensures StateOf(Returned(ok1, state)) == StateOf(Returned(ok2, state)) == state
  {
  }

  /**
   One iteration checks the exit flag, pauses and calls, in that order, and
   then puts exactly once, whether the call raised or not.
   */
  lemma IterationOrder(o: RunOutcome<string>)
    ensures var ev := Iteration(o);
      PauseAfterExitCheck(ev) && PauseAfterLowExit(ev) && RunAfterPause(ev) && NextAfterRun(ev, Put) && AfterRun(ev, Put)
    ensures forall j :: 0 <= j < |Iteration(o)| ==> Iteration(o)[j] != ExitChecked(true)
    ensures |Iteration(o)| == 4 && Iteration(o)[..3] == [ExitChecked(false), PauseChecked, Ran(o.Raised?)]
  {
    assert Iteration(o) == [ExitChecked(false), PauseChecked, Ran(o.Raised?), Put];
  }

  /** One iteration makes one call and one `put`. */
  lemma IterationCounts(o: RunOutcome<string>)
    ensures Runs(Iteration(o)) == 1 && Puts(Iteration(o)) == 1
  {
    var r := Ran(o.Raised?);
    assert Iteration(o) == [ExitChecked(false)] + ([PauseChecked] + ([r] + [Put]));
    CountsCons(ExitChecked(false), [PauseChecked] + ([r] + [Put]));
    CountsCons(PauseChecked, [r] + [Put]);
    CountsCons(r, [Put]);
    CountsCons(Put, []);
  }

  /**
   `check_pause` follows every low exit flag and precedes every call, and
   every call, raising or not, is directly followed by a `put`, which no
   other event is. There is one call and one `put` per iteration.
   */
  lemma {:induction false} LoopOrder(flags: seq<bool>, report: nat -> RunOutcome<string>, k: nat)
    decreases |flags|
    ensures var ev := Loop(flags, report, k).events;
      PauseAfterExitCheck(ev) && PauseAfterLowExit(ev) && RunAfterPause(ev)
      && NextAfterRun(ev, Put) && AfterRun(ev, Put) && ExitLast(ev)
    ensures var t := Loop(flags, report, k);
      Runs(t.events) == t.work && Puts(t.events) == t.work
  {
    if |flags| == 0 || flags[0] {
      FinalOrder(Loop(flags, report, k).events);
      FinalCounts(Loop(flags, report, k).events);
    } else {
      var it := Iteration(report(k));
      var rest := Loop(flags[1..], report, k + 1).events;
      assert Loop(flags, report, k).events == it + rest;
      LoopOrder(flags[1..], report, k + 1);
      IterationOrder(report(k));
      IterationCounts(report(k));
      RunsConcat(it, rest);
      PutsConcat(it, rest);
      ConcatPauseAfterExitCheck(it, rest);
      ConcatPauseAfterLowExit(it, rest);
      ConcatRunAfterPause(it, rest);
      ConcatNextAfterRun(it, rest, Put);
      ConcatAfterRun(it, rest, Put);
      ConcatExitLast(it, rest);
    }
  }
}

=== FILE: heartbeat_sender_worker.dfy ===
/**
 `heartbeat_sender_worker`: sends one heartbeat per iteration and sleeps one
 period. A failed send is logged and the loop goes on; only the exit flag
 ends it. Whether the send in iteration i raises is `raises(i)`.
 */
module HeartbeatSenderWorker {

  import opened Controller
  import opened WorkerLoop

  function Iteration(raised: bool): seq<Event>
  {
    Prologue + [Ran(raised), Slept]
  }

  /** The main loop from iteration k on: pause check, one send attempt, one sleep, per iteration. */
  function Loop(flags: seq<bool>, raises: nat -> bool, k: nat): (r: Trace<()>)
    decreases |flags|
    ensures r.work == FirstExit(flags)
    ensures r.state == if FirstExit(flags) < |flags| then Exited(ExitRequested) else Running
    ensures r.output == []
  {
    if |flags| == 0 then Trace([], [], 0, Running)
    else if flags[0] then Trace([ExitChecked(true)], [], 0, Exited(ExitRequested))
    else
      var rest := Loop(flags[1..], raises, k + 1);
      Trace(Iteration(raises(k)) + rest.events, [], 1 + rest.work, rest.state)
  }

  /** A logger or `HeartbeatSender` creation failure returns before any send attempt. */
  function Worker(loggerOk: bool, senderOk: bool, flags: seq<bool>, raises: nat -> bool): (r: Trace<()>)
    ensures !(loggerOk && senderOk) <==> r.state == Exited(SetupFailed)
    ensures !(loggerOk && senderOk) ==> r.events == [] && r.work == 0
    ensures loggerOk && senderOk ==> r == Loop(flags, raises, 0)
    ensures loggerOk && senderOk ==> r.work == FirstExit(flags) && r.output == []
    ensures loggerOk && senderOk ==> r.state == if FirstExit(flags) < |flags| then Exited(ExitRequested) else Running
  {
    if !loggerOk || !senderOk then SetupFailure() else Loop(flags, raises, 0)
  }

  lemma IterationOrder(raised: bool)
    ensures var ev := Iteration(raised);
      PauseAfterExitCheck(ev) && PauseAfterLowExit(ev) && RunAfterPause(ev) && NextAfterRun(ev, Slept) && AfterRun(ev, Slept)
    ensures forall j :: 0 <= j < |Iteration(raised)| ==> Iteration(raised)[j] != ExitChecked(true)
    ensures Runs(Iteration(raised)) == 1
  {
    var ev := Iteration(raised);
    assert ev == [ExitChecked(false), PauseChecked, Ran(raised), Slept];
    assert Runs([Slept]) == 0 by { assert [Slept][1..] == []; }
    assert Runs([Ran(raised), Slept]) == 1 by { assert [Ran(raised), Slept][1..] == [Slept]; }
    assert Runs([PauseChecked, Ran(raised), Slept]) == 1 by {
      assert [PauseChecked, Ran(raised), Slept][1..] == [Ran(raised), Slept];
    }
    assert ev[1..] == [PauseChecked, Ran(raised), Slept];
  }

  /**
   Each iteration is a pause check after a low exit flag, then exactly one
   send attempt, then one sleep, which only a send attempt precedes; the
   number of send attempts is the number of iterations, whatever the sends
   raised.
   */
  lemma {:induction false} LoopOrder(flags: seq<bool>, raises: nat -> bool, k: nat)
    decreases |flags|
    ensures var ev := Loop(flags, raises, k).events;
      PauseAfterExitCheck(ev) && PauseAfterLowExit(ev) && RunAfterPause(ev)
      && NextAfterRun(ev, Slept) && AfterRun(ev, Slept) && ExitLast(ev)
    ensures Runs(Loop(flags, raises, k).events) == FirstExit(flags)
  {
    if |flags| == 0 {
      assert Loop(flags, raises, k).events == [];
    } else if flags[0] {
      assert Loop(flags, raises, k).events == [ExitChecked(true)];
    } else {
      var it := Iteration(raises(k));
      var rest := Loop(flags[1..], raises, k + 1).events;
      assert Loop(flags, raises, k).events == it + rest;
      LoopOrder(flags[1..], raises, k + 1);
      IterationOrder(raises(k));
      RunsConcat(it, rest);
      ConcatPauseAfterExitCheck(it, rest);
      ConcatRunAfterPause(it, rest);
      ConcatPauseAfterLowExit(it, rest);
      ConcatNextAfterRun(it, rest, Slept);
      ConcatAfterRun(it, rest, Slept);
      ConcatExitLast(it, rest);
    }
  }

  /** Send failures never end the loop: the sender runs as long with any outcomes. */
  lemma SendErrorsDoNotStop(flags: seq<bool>, raises1: nat -> bool, raises2: nat -> bool)
    ensures Loop(flags, raises1, 0).work == Loop(flags, raises2, 0).work
    ensures Loop(flags, raises1, 0).state == Loop(flags, raises2, 0).state
  {
  }
}

=== FILE: phases.dfy ===
/**
 Runs made of phases. A run is a sequence of steps, each step belongs to a
 phase numbered by `phase`, and a run built from consecutive blocks of one
 phase each is ordered by phase. The owner process's shutdown order is
 stated and proved with these.
 */
module Phases {

  /** The phases of `ev` never go backwards. */
  predicate Monotone<E>(ev: seq<E>, phase: E -> nat)
  {
    forall i, j :: 0 <= i < j < |ev| ==> phase(ev[i]) <= phase(ev[j])
  }

  /** Every step in `s` belongs to phase `p`. */
  predicate AllPhase<E>(s: seq<E>, phase: E -> nat, p: nat)
  {
    forall k :: 0 <= k < |s| ==> phase(s[k]) == p
  }

  /** The steps of `ev` that belong to phase `p`, in order. */
  function OfPhase<E>(ev: seq<E>, phase: E -> nat, p: nat): seq<E>
  {
    if |ev| == 0 then [] else (if phase(ev[0]) == p then [ev[0]] else []) + OfPhase(ev[1..], phase, p)
  }

  /** The steps of a run made of consecutive blocks. */
  function Flatten<E>(blocks: seq<seq<E>>): seq<E>
  {
    if |blocks| == 0 then [] else blocks[0] + Flatten(blocks[1..])
  }

  /** Block i of `blocks` holds steps of phase `base + i` only. */
  predicate Phased<E>(blocks: seq<seq<E>>, phase: E -> nat, base: nat)
    decreases |blocks|
  {
    |blocks| == 0 || (AllPhase(blocks[0], phase, base) && Phased(blocks[1..], phase, base + 1))
  }

  lemma {:induction false} OfPhaseConcat<E>(a: seq<E>, b: seq<E>, phase: E -> nat, p: nat)
    ensures OfPhase(a + b, phase, p) == OfPhase(a, phase, p) + OfPhase(b, phase, p)
  {
    if |a| == 0 {
      assert a + b == b;
    } else {
      var h := if phase(a[0]) == p then [a[0]] else [];
      assert (a + b)[0] == a[0];
      assert (a + b)[1..] == a[1..] + b;
      OfPhaseConcat(a[1..], b, phase, p);
      calc {
        OfPhase(a + b, phase, p);
        h + OfPhase(a[1..] + b, phase, p);
        h + (OfPhase(a[1..], phase, p) + OfPhase(b, phase, p));
        (h + OfPhase(a[1..], phase, p)) + OfPhase(b, phase, p);
      }
    }
  }

  /** Selecting phase `p` keeps a block of phase `p` whole and drops a block of any other phase. */
  lemma {:induction false} OfPhaseBlock<E>(s: seq<E>, phase: E -> nat, q: nat, p: nat)
    requires AllPhase(s, phase, q)
    ensures OfPhase(s, phase, p) == if p == q then s else []
  {
    if |s| > 0 {
      assert AllPhase(s[1..], phase, q) by {
        forall k | 0 <= k < |s[1..]| ensures phase(s[1..][k]) == q {
          assert s[1..][k] == s[k + 1];
        }
      }
      OfPhaseBlock(s[1..], phase, q, p);
      if p == q {
        assert s == [s[0]] + s[1..];
      }
    }
  }

  /** Selecting phase `p` from steps of other phases keeps nothing. */
  lemma {:induction false} OfPhaseAbsent<E>(s: seq<E>, phase: E -> nat, p: nat)
    requires forall k :: 0 <= k < |s| ==> phase(s[k]) != p
    ensures OfPhase(s, phase, p) == []
  {
    if |s| > 0 {
      assert forall k :: 0 <= k < |s[1..]| ==> s[1..][k] == s[k + 1];
      OfPhaseAbsent(s[1..], phase, p);
    }
  }

  /** A block of phase `p` followed by a monotone run of later phases is monotone. */
  lemma MonotoneAppend<E>(head: seq<E>, rest: seq<E>, phase: E -> nat, p: nat)
    requires AllPhase(head, phase, p) && Monotone(rest, phase)
    requires forall k :: 0 <= k < |rest| ==> p < phase(rest[k])
    ensures Monotone(head + rest, phase)
  {
    forall i, j | 0 <= i < j < |head + rest|
      ensures phase((head + rest)[i]) <= phase((head + rest)[j])
    {
      if j < |head| {
        assert (head + rest)[i] == head[i] && (head + rest)[j] == head[j];
      } else if i < |head| {
        assert (head + rest)[i] == head[i] && (head + rest)[j] == rest[j - |head|];
      } else {
        assert (head + rest)[i] == rest[i - |head|] && (head + rest)[j] == rest[j - |head|];
      }
    }
  }

  /** A run made of blocks of consecutive phases `base`, `base + 1`, ... stays inside those phases. */
  lemma {:induction false} FlattenRange<E>(blocks: seq<seq<E>>, phase: E -> nat, base: nat)
    requires Phased(blocks, phase, base)
    ensures forall k :: 0 <= k < |Flatten(blocks)| ==>
      base <= phase(Flatten(blocks)[k]) < base + |blocks|
  {
    if |blocks| > 0 {
      var head, tail := blocks[0], blocks[1..];
      var rest := Flatten(tail);
      FlattenRange(tail, phase, base + 1);
      assert Flatten(blocks) == head + rest;
      forall k | 0 <= k < |head + rest|
        ensures base <= phase((head + rest)[k]) < base + |blocks|
      {
        if k < |head| {
          assert (head + rest)[k] == head[k];
        } else {
          assert (head + rest)[k] == rest[k - |head|];
        }
      }
    }
  }

  /** A run made of blocks of consecutive phases is monotone. */
  lemma {:induction false} FlattenMonotone<E>(blocks: seq<seq<E>>, phase: E -> nat, base: nat)
    requires Phased(blocks, phase, base)
    ensures Monotone(Flatten(blocks), phase)
  {
    if |blocks| > 0 {
      var tail := blocks[1..];
      FlattenMonotone(tail, phase, base + 1);
      FlattenRange(tail, phase, base + 1);
      MonotoneAppend(blocks[0], Flatten(tail), phase, base);
    }
  }

  /** Selecting from a block of phase `p` followed by later phases. */
  lemma SelectStep<E>(head: seq<E>, rest: seq<E>, phase: E -> nat, p: nat, q: nat)
    requires AllPhase(head, phase, p)
    requires forall k :: 0 <= k < |rest| ==> p < phase(rest[k])
    ensures OfPhase(head + rest, phase, q) == if q == p then head else OfPhase(rest, phase, q)
  {
    OfPhaseConcat(head, rest, phase, q);
    OfPhaseBlock(head, phase, p, q);
    if q == p {
      OfPhaseAbsent(rest, phase, p);
      assert OfPhase(head + rest, phase, p) == head + [];
    } else {
      assert OfPhase(head + rest, phase, q) == [] + OfPhase(rest, phase, q);
    }
  }

  /** Selecting phase `q` from a run of blocks: block 0 when `q` is its phase, else what the later blocks give. */
  lemma SelectFirst<E>(blocks: seq<seq<E>>, phase: E -> nat, base: nat, q: nat)
    requires Phased(blocks, phase, base) && 0 < |blocks|
    ensures OfPhase(Flatten(blocks), phase, q) ==
      if q == base then blocks[0] else OfPhase(Flatten(blocks[1..]), phase, q)
  {
    FlattenRange(blocks[1..], phase, base + 1);
    assert Flatten(blocks) == blocks[0] + Flatten(blocks[1..]);
    SelectStep(blocks[0], Flatten(blocks[1..]), phase, base, q);
  }

  /** In a run made of blocks of consecutive phases, the steps of phase `base + i` are block `i`. */
  lemma {:induction false} FlattenSelect<E>(blocks: seq<seq<E>>, phase: E -> nat, base: nat, i: nat)
    requires Phased(blocks, phase, base)
    requires i < |blocks|
    ensures OfPhase(Flatten(blocks), phase, base + i) == blocks[i]
  {
    SelectFirst(blocks, phase, base, base + i);
    if i > 0 {
      FlattenSelect(blocks[1..], phase, base + 1, i - 1);
      assert blocks[1..][i - 1] == blocks[i];
    }
  }

  /** Adding block `k` in front of the blocks after it. */
  lemma PhasedFrom<E>(bs: seq<seq<E>>, phase: E -> nat, k: nat, base: nat)
    requires k < |bs| && AllPhase(bs[k], phase, base) && Phased(bs[k + 1..], phase, base + 1)
    ensures Phased(bs[k..], phase, base)
  {
    assert bs[k..][0] == bs[k];
    assert bs[k..][1..] == bs[k + 1..];
  }
}

=== FILE: telemetry.dfy ===
/**
 Telemetry gathering: `Telemetry.run` reads MAVLink messages until it holds
 both an ATTITUDE and a LOCAL_POSITION_NED, and merges the latest of each into
 one `TelemetryData` record.

 The link is a finite sequence of receive results. Each element is what one
 `recv_match` call produced. The end of the sequence stands for the deadline
 passing, so the loop stops there.
 */
module Telemetry {

  import opened Wrappers

  /** The fields of a MAVLink ATTITUDE (30) message that the merge reads. */
  datatype Attitude = Attitude(
    timeBootMs: nat,
    roll: real, pitch: real, yaw: real,
    rollSpeed: real, pitchSpeed: real, yawSpeed: real)

  /** The fields of a MAVLink LOCAL_POSITION_NED (32) message that the merge reads. */
  datatype LocalPositionNed = LocalPositionNed(
    timeBootMs: nat,
    x: real, y: real, z: real,
    vx: real, vy: real, vz: real)

  datatype Message =
    | AttitudeMsg(attitude: Attitude)
    | PositionMsg(position: LocalPositionNed)
    | OtherMsg  // a message of any type other than ATTITUDE and LOCAL_POSITION_NED

  /** One `recv_match` call: a message, an empty result, or an exception. */
  datatype Receive = Received(msg: Message) | TimedOut | RecvFailed

  /** `TelemetryData`: every field is optional, as in the record's constructor. */
  datatype TelemetryData = TelemetryData(
    timeSinceBoot: Option<nat>,
    x: Option<real>, y: Option<real>, z: Option<real>,
    xVelocity: Option<real>, yVelocity: Option<real>, zVelocity: Option<real>,
    roll: Option<real>, pitch: Option<real>, yaw: Option<real>,
    rollSpeed: Option<real>, pitchSpeed: Option<real>, yawSpeed: Option<real>)

  /** An exception while receiving is folded into "no message". */
  function AsMessage(r: Receive): Option<Message>
  {
    match r
    case Received(m) => Some(m)
    case TimedOut => None
    case RecvFailed => None
  }

  function AttitudeIn(r: Receive): Option<Attitude>
  {
    if r.Received? && r.msg.AttitudeMsg? then Some(r.msg.attitude) else None
  }

  function PositionIn(r: Receive): Option<LocalPositionNed>
  {
    if r.Received? && r.msg.PositionMsg? then Some(r.msg.position) else None
  }

  /**
   The latest value `pick` finds in `s`: a later message of the tracked kind
   replaces every earlier one, and messages of other kinds are skipped.
   */
  function Latest<T>(s: seq<Receive>, pick: Receive -> Option<T>): Option<T>
  {
    if |s| == 0 then None
    else if pick(s[|s| - 1]).Some? then pick(s[|s| - 1])
    else Latest(s[..|s| - 1], pick)
  }

  /**
   `Latest` finds nothing exactly when no receive carries the tracked kind;
   otherwise it returns the value of some receive after which none does.
   */
  lemma {:induction false} LatestIsLast<T>(s: seq<Receive>, pick: Receive -> Option<T>)
    ensures Latest(s, pick).None? <==> forall i :: 0 <= i < |s| ==> pick(s[i]).None?
    ensures Latest(s, pick).Some? ==>
      exists i :: 0 <= i < |s| && pick(s[i]) == Latest(s, pick) &&
        forall j :: i < j < |s| ==> pick(s[j]).None?
  {
    if |s| > 0 && pick(s[|s| - 1]).None? {
      LatestIsLast(s[..|s| - 1], pick);
      assert forall i :: 0 <= i < |s| - 1 ==> s[..|s| - 1][i] == s[i];
    }
  }

  /** Both tracked kinds have been seen in `s`. */
  predicate Complete(s: seq<Receive>)
  {
    Latest(s, AttitudeIn).Some? && Latest(s, PositionIn).Some?
  }

  /** The index of the first empty receive, or |link| when there is none. */
  function Gap(link: seq<Receive>): (g: nat)
    ensures g <= |link|
    ensures forall i :: 0 <= i < g ==> AsMessage(link[i]).Some?
    ensures g < |link| ==> AsMessage(link[g]).None?
  {
    if |link| == 0 || AsMessage(link[0]).None? then 0
    else 1 + Gap(link[1..])
  }

  /** The loop state of `run`: latest attitude, latest position, receives made. */
  datatype ScanState = ScanState(attitude: Option<Attitude>, position: Option<LocalPositionNed>, consumed: nat)

  /** The receive loop of `run`, from receive number `i` on. */
  function ScanFrom(link: seq<Receive>, i: nat, att: Option<Attitude>, pos: Option<LocalPositionNed>): ScanState
    requires i <= |link|
    decreases |link| - i
  {
    if att.Some? && pos.Some? then ScanState(att, pos, i)
    else if i == |link| then ScanState(att, pos, i)
    else match AsMessage(link[i])
      case None => ScanState(att, pos, i + 1)
      case Some(AttitudeMsg(a)) => ScanFrom(link, i + 1, Some(a), pos)
      case Some(PositionMsg(p)) => ScanFrom(link, i + 1, att, Some(p))
      case Some(OtherMsg) => ScanFrom(link, i + 1, att, pos)
  }

  lemma LatestSnoc<T>(s: seq<Receive>, x: Receive, pick: Receive -> Option<T>)
    ensures Latest(s + [x], pick) == if pick(x).Some? then pick(x) else Latest(s, pick)
  {
    assert (s + [x])[..|s|] == s;
  }

  lemma PrefixSnoc(link: seq<Receive>, i: nat)
    requires i < |link|
    ensures link[..i + 1] == link[..i] + [link[i]]
  {
  }

  /** One receive of the loop before the pair is complete: the latest values follow it, and no earlier prefix was complete. */
  lemma ScanStep(link: seq<Receive>, i: nat, att: Option<Attitude>, pos: Option<LocalPositionNed>)
    requires i < |link|
    requires att == Latest(link[..i], AttitudeIn) && pos == Latest(link[..i], PositionIn)
    requires !(att.Some? && pos.Some?)
    requires forall m :: 0 <= m < i ==> !Complete(link[..m])
    ensures Latest(link[..i + 1], AttitudeIn) == if AttitudeIn(link[i]).Some? then AttitudeIn(link[i]) else att
    ensures Latest(link[..i + 1], PositionIn) == if PositionIn(link[i]).Some? then PositionIn(link[i]) else pos
    ensures forall m :: 0 <= m < i + 1 ==> !Complete(link[..m])
  {
    PrefixSnoc(link, i);
    LatestSnoc(link[..i], link[i], AttitudeIn);
    LatestSnoc(link[..i], link[i], PositionIn);
  }

  /** The loop invariant of `run`, carried from receive `i` to the end of the loop. */
  lemma {:induction false} ScanFromSpec(link: seq<Receive>, i: nat, att: Option<Attitude>, pos: Option<LocalPositionNed>)
    requires i <= |link| && i <= Gap(link)
    requires att == Latest(link[..i], AttitudeIn) && pos == Latest(link[..i], PositionIn)
    requires forall m :: 0 <= m < i ==> !Complete(link[..m])
    decreases |link| - i
    ensures var s := ScanFrom(link, i, att, pos);
      && i <= s.consumed <= |link|
      && s.consumed <= Gap(link) + 1
      && s.attitude == Latest(link[..s.consumed], AttitudeIn)
      && s.position == Latest(link[..s.consumed], PositionIn)
      && (forall m :: 0 <= m < s.consumed ==> !Complete(link[..m]))
      && (s.consumed == |link| || s.consumed == Gap(link) + 1 || Complete(link[..s.consumed]))
  {
    if att.Some? && pos.Some? {
    } else if i == |link| {
    } else {
      ScanStep(link, i, att, pos);
      match AsMessage(link[i])
      case None =>
        assert i == Gap(link);
      case Some(AttitudeMsg(a)) =>
        ScanFromSpec(link, i + 1, Some(a), pos);
      case Some(PositionMsg(p)) =>
        ScanFromSpec(link, i + 1, att, Some(p));
      case Some(OtherMsg) =>
        ScanFromSpec(link, i + 1, att, pos);
    }
  }

  /**
   The whole receive loop of `run`. It reads no further once the pair is
   complete, stops right after the first empty receive, and otherwise runs to
   the deadline. It holds the latest message of each kind among those read.
   */
  function Scan(link: seq<Receive>): (s: ScanState)
    ensures s.consumed <= |link| && s.consumed <= Gap(link) + 1
    ensures s.attitude == Latest(link[..s.consumed], AttitudeIn)
    ensures s.position == Latest(link[..s.consumed], PositionIn)
    ensures forall m :: 0 <= m < s.consumed ==> !Complete(link[..m])
    ensures s.consumed == |link| || s.consumed == Gap(link) + 1 || Complete(link[..s.consumed])
  {
    ScanFromSpec(link, 0, None, None);
    ScanFrom(link, 0, None, None)
  }

  function Max(a: nat, b: nat): nat
  {
    if a >= b then a else b
  }

  /**
   Builds the record from the two messages: the timestamp is the later of the
   two, position and velocity come from `p`, angles and rates from `a`.
   */
  function Merge(a: Attitude, p: LocalPositionNed): (r: TelemetryData)
    ensures r.timeSinceBoot.Some?
    ensures r.timeSinceBoot.value >= a.timeBootMs && r.timeSinceBoot.value >= p.timeBootMs
    ensures r.timeSinceBoot.value == a.timeBootMs || r.timeSinceBoot.value == p.timeBootMs
    ensures r.x == Some(p.x) && r.y == Some(p.y) && r.z == Some(p.z)
    ensures r.xVelocity == Some(p.vx) && r.yVelocity == Some(p.vy) && r.zVelocity == Some(p.vz)
    ensures r.roll == Some(a.roll) && r.pitch == Some(a.pitch) && r.yaw == Some(a.yaw)
    ensures r.rollSpeed == Some(a.rollSpeed) && r.pitchSpeed == Some(a.pitchSpeed)
    ensures r.yawSpeed == Some(a.yawSpeed)
  {
    TelemetryData(
      Some(Max(a.timeBootMs, p.timeBootMs)),
      Some(p.x), Some(p.y), Some(p.z),
      Some(p.vx), Some(p.vy), Some(p.vz),
      Some(a.roll), Some(a.pitch), Some(a.yaw),
      Some(a.rollSpeed), Some(a.pitchSpeed), Some(a.yawSpeed))
  }

  /** `Telemetry.run`: `Some(record)` for `(True, record)`, `None` for `(False, None)`. */
  function Run(link: seq<Receive>): (r: Option<TelemetryData>)
    ensures r.Some? <==> Complete(link[..Scan(link).consumed])
    ensures r.Some? ==>
      var s := link[..Scan(link).consumed];
      r.value == Merge(Latest(s, AttitudeIn).value, Latest(s, PositionIn).value)
  {
    var s := Scan(link);
    if s.attitude.None? || s.position.None? then None
    else Some(Merge(s.attitude.value, s.position.value))
  }

  lemma LatestPrefixMonotone<T>(link: seq<Receive>, m: nat, n: nat, pick: Receive -> Option<T>)
    requires m <= n <= |link|
    requires Latest(link[..m], pick).Some?
    ensures Latest(link[..n], pick).Some?
  {
    LatestIsLast(link[..m], pick);
    LatestIsLast(link[..n], pick);
    var i :| 0 <= i < m && pick(link[..m][i]).Some?;
    assert link[..n][i] == link[..m][i];
  }

  lemma LatestPrefixIgnoresGap<T>(link: seq<Receive>, g: nat, pick: Receive -> Option<T>)
    requires g < |link| && AsMessage(link[g]).None?
    requires forall r :: AsMessage(r).None? ==> pick(r).None?
    ensures Latest(link[..g + 1], pick) == Latest(link[..g], pick)
  {
    PrefixSnoc(link, g);
    LatestSnoc(link[..g], link[g], pick);
  }

  /**
   `run` succeeds exactly when an ATTITUDE and a LOCAL_POSITION_NED both
   arrive before the first empty receive (or the deadline).
   */
  lemma RunSucceedsIff(link: seq<Receive>)
    ensures Run(link).Some? <==>
      (exists i :: 0 <= i < Gap(link) && AttitudeIn(link[i]).Some?) &&
      (exists j :: 0 <= j < Gap(link) && PositionIn(link[j]).Some?)
  {
    SeenBeforeGap(link, AttitudeIn);
    SeenBeforeGap(link, PositionIn);
    CompleteAtScanEnd(link);
  }

  /** A tracked kind arrives before the first empty receive exactly when `Latest` finds it there. */
  lemma SeenBeforeGap<T>(link: seq<Receive>, pick: Receive -> Option<T>)
    ensures (exists i :: 0 <= i < Gap(link) && pick(link[i]).Some?) <==> Latest(link[..Gap(link)], pick).Some?
  {
    var g := Gap(link);
    LatestIsLast(link[..g], pick);
    assert forall i :: 0 <= i < g ==> link[..g][i] == link[i];
  }

  /** The receives `run` made hold both kinds exactly when those before the first empty receive do. */
  lemma CompleteAtScanEnd(link: seq<Receive>)
    ensures Complete(link[..Scan(link).consumed]) <==> Complete(link[..Gap(link)])
  {
    var n := Scan(link).consumed;
    var g := Gap(link);
    if Complete(link[..n]) {
      // Completion at n means receive n - 1 was a tracked message, so n <= g.
      if n == g + 1 {
        LatestPrefixIgnoresGap(link, g, AttitudeIn);
        LatestPrefixIgnoresGap(link, g, PositionIn);
        assert false;
      }
      LatestPrefixMonotone(link, n, g, AttitudeIn);
      LatestPrefixMonotone(link, n, g, PositionIn);
    } else if n == g + 1 {
      LatestPrefixIgnoresGap(link, g, AttitudeIn);
      LatestPrefixIgnoresGap(link, g, PositionIn);
    } else {
      assert n == |link|;
      assert g == n;
    }
  }

  /** A receive exception and an empty receive have the same effect on `run`. */
  lemma {:induction false} ScanFromSameMessages(a: seq<Receive>, b: seq<Receive>, i: nat, att: Option<Attitude>, pos: Option<LocalPositionNed>)
    requires |a| == |b| && i <= |a|
    requires forall k :: 0 <= k < |a| ==> AsMessage(a[k]) == AsMessage(b[k])
    decreases |a| - i
    ensures ScanFrom(a, i, att, pos) == ScanFrom(b, i, att, pos)
  {
    if att.Some? && pos.Some? {
    } else if i == |a| {
    } else {
      match AsMessage(a[i])
      case None =>
      case Some(AttitudeMsg(x)) => ScanFromSameMessages(a, b, i + 1, Some(x), pos);
      case Some(PositionMsg(p)) => ScanFromSameMessages(a, b, i + 1, att, Some(p));
      case Some(OtherMsg) => ScanFromSameMessages(a, b, i + 1, att, pos);
    }
  }

  lemma LatestSameMessages<T>(a: seq<Receive>, b: seq<Receive>, pick: Receive -> Option<T>)
    requires |a| == |b|
    requires forall k :: 0 <= k < |a| ==> pick(a[k]) == pick(b[k])
    ensures Latest(a, pick) == Latest(b, pick)
  {
    if |a| > 0 {
      LatestSameMessages(a[..|a| - 1], b[..|b| - 1], pick);
    }
  }

  lemma RecvFailedIsTimeout(link: seq<Receive>, i: nat)
    requires i < |link|
    ensures Run(link[i := RecvFailed]) == Run(link[i := TimedOut])
  {
    var a, b := link[i := RecvFailed], link[i := TimedOut];
    ScanFromSameMessages(a, b, 0, None, None);
    var n := Scan(a).consumed;
    assert forall k :: 0 <= k < n ==> a[..n][k] == a[k] && b[..n][k] == b[k];
    LatestSameMessages(a[..n], b[..n], AttitudeIn);
    LatestSameMessages(a[..n], b[..n], PositionIn);
  }

  /** The link with a message of an untracked type inserted before receive `k`. */
  function InsertOther(link: seq<Receive>, k: nat): (r: seq<Receive>)
    requires k <= |link|
    ensures |r| == |link| + 1
  {
    link[..k] + [Received(OtherMsg)] + link[k..]
  }

  lemma {:induction false} ScanFromInsertOther(link: seq<Receive>, k: nat, i: nat, att: Option<Attitude>, pos: Option<LocalPositionNed>)
    requires k <= |link| && i <= |link|
    decreases |link| - i
    ensures var s := ScanFrom(link, i, att, pos);
      var s' := ScanFrom(InsertOther(link, k), if i <= k then i else i + 1, att, pos);
      s'.attitude == s.attitude && s'.position == s.position
  {
    var l' := InsertOther(link, k);
    var i' := if i <= k then i else i + 1;
    if att.Some? && pos.Some? {
    } else if i == k {
      // the longer link holds the inserted message at receive k: skip it, then read in step
      assert l'[i] == Received(OtherMsg);
      if i < |link| {
        assert l'[i + 1] == link[i];
        match AsMessage(link[i])
        case None =>
        case Some(AttitudeMsg(a)) => ScanFromInsertOther(link, k, i + 1, Some(a), pos);
        case Some(PositionMsg(p)) => ScanFromInsertOther(link, k, i + 1, att, Some(p));
        case Some(OtherMsg) => ScanFromInsertOther(link, k, i + 1, att, pos);
      }
    } else if i == |link| {
    } else {
      assert l'[i'] == link[i];
      match AsMessage(link[i])
      case None =>
      case Some(AttitudeMsg(a)) => ScanFromInsertOther(link, k, i + 1, Some(a), pos);
      case Some(PositionMsg(p)) => ScanFromInsertOther(link, k, i + 1, att, Some(p));
      case Some(OtherMsg) => ScanFromInsertOther(link, k, i + 1, att, pos);
    }
  }

  /** A message of any other type, wherever it arrives, does not change the result of `run`. */
  lemma RunIgnoresOtherTypes(link: seq<Receive>, k: nat)
    requires k <= |link|
    ensures Run(InsertOther(link, k)) == Run(link)
  {
    ScanFromInsertOther(link, k, 0, None, None);
  }

  /** The constructor's key: only the class's private key passes its assertion. */
  datatype Key = PrivateKey | ForeignKey(id: nat)

  /** A constructed `Telemetry` object; the connection and logger are not modelled. */
  datatype Reader = Reader(timeoutS: real)

  /** `Telemetry.__init__`: `None` when the key assertion fails. */
  function Construct(key: Key, timeoutS: real): (r: Option<Reader>)
    ensures r.Some? <==> key == PrivateKey
    ensures r.Some? ==> r.value.timeoutS == timeoutS
  {
    if key == PrivateKey then Some(Reader(timeoutS)) else None
  }

  /** `Telemetry.create`: a success flag and the object, or `(false, None)`. */
  function Create(timeoutS: real): (r: (bool, Option<Reader>))
    ensures r.0 <==> r.1.Some?
    ensures r.0 && r.1.value.timeoutS == timeoutS
  {
    match Construct(PrivateKey, timeoutS)
    case Some(reader) => (true, Some(reader))
    case None => (false, None)
  }
}

=== FILE: telemetry_worker.dfy ===
/**
 `telemetry_worker`: calls `Telemetry.run` once per iteration and puts the
 record on its output queue whenever the call reported success. It has no
 input queue, so only the exit flag ends it.

 What `run` does in iteration i is `sample(i)`. The worker's own model of a
 call, over the link it reads, is `Telemetry.Run`.
 */
module TelemetryWorker {

  import opened Wrappers
  import opened Controller
  import opened WorkerLoop
  import Telemetry

  /** What one call puts on the output queue: `data` whenever `success` is true. */
  function Forward<T>(o: RunOutcome<Option<T>>): seq<Option<T>>
  {
    if o.Returned? && o.success then [o.value] else []
  }

  /** The data of the successful calls among iterations k .. k + n - 1, in order. */
  function Successes<T>(sample: nat -> RunOutcome<Option<T>>, k: nat, n: nat): seq<Option<T>>
    decreases n
  {
    if n == 0 then [] else Forward(sample(k)) + Successes(sample, k + 1, n - 1)
  }

  /** The events of one iteration. */
  function Iteration<T>(o: RunOutcome<Option<T>>): seq<Event>
  {
    Prologue + [Ran(o.Raised?)] + (if |Forward(o)| > 0 then [Put] else [])
  }

  /**
   The main loop from iteration k on, with `flags` the results of the
   remaining exit checks. Each iteration makes exactly one call; the loop
   stops only at a raised exit flag.
   */
  function Loop<T>(flags: seq<bool>, sample: nat -> RunOutcome<Option<T>>, k: nat): (r: Trace<Option<T>>)
    decreases |flags|
    ensures r.work == FirstExit(flags)
    ensures r.state == if FirstExit(flags) < |flags| then Exited(ExitRequested) else Running
    ensures r.output == Successes(sample, k, r.work)
  {
    if |flags| == 0 then Trace([], [], 0, Running)
    else if flags[0] then Trace([ExitChecked(true)], [], 0, Exited(ExitRequested))
    else
      var rest := Loop(flags[1..], sample, k + 1);
      Trace(Iteration(sample(k)) + rest.events, Forward(sample(k)) + rest.output, 1 + rest.work, rest.state)
  }

  /**
   `telemetry_worker`: a logger failure returns before any call or output.
   The `Telemetry` object comes from `Telemetry.Create`.
   */
  function Worker(loggerOk: bool, timeoutS: real, flags: seq<bool>,
                  sample: nat -> RunOutcome<Option<Telemetry.TelemetryData>>): (r: Trace<Option<Telemetry.TelemetryData>>)
    ensures !loggerOk <==> r.state == Exited(SetupFailed)
    ensures !loggerOk ==> r.events == [] && r.output == [] && r.work == 0
    ensures loggerOk ==> r == Loop(flags, sample, 0)
    ensures loggerOk ==> r.work == FirstExit(flags) && r.output == Successes(sample, 0, r.work)
    ensures loggerOk ==> r.state == if FirstExit(flags) < |flags| then Exited(ExitRequested) else Running
  {
    if !loggerOk then SetupFailure()
    else
      var ok := Telemetry.Create(timeoutS).0;
      if !ok then SetupFailure() else Loop(flags, sample, 0)
  }

  /**
   One iteration checks the exit flag, pauses and calls, in that order, and
   then puts at most once.
   */
  lemma IterationOrder<T>(o: RunOutcome<Option<T>>)
    ensures var ev := Iteration(o);
      PauseAfterExitCheck(ev) && PauseAfterLowExit(ev) && RunAfterPause(ev) && PutAfterReturn(ev)
    ensures forall k :: 0 <= k < |Iteration(o)| ==> Iteration(o)[k] != ExitChecked(true)
    ensures |Iteration(o)| == 3 + |Forward(o)|
    ensures Iteration(o)[..3] == [ExitChecked(false), PauseChecked, Ran(o.Raised?)]
    ensures |Forward(o)| > 0 ==> Iteration(o)[3] == Put
  {
    if |Forward(o)| > 0 {
      assert Iteration(o) == [ExitChecked(false), PauseChecked, Ran(false), Put];
    } else {
      assert Iteration(o) == [ExitChecked(false), PauseChecked, Ran(o.Raised?)];
    }
  }

  /** One iteration makes one call and puts exactly what it forwards. */
  lemma IterationCounts<T>(o: RunOutcome<Option<T>>)
    ensures Runs(Iteration(o)) == 1 && Puts(Iteration(o)) == |Forward(o)|
  {
    var r := Ran(o.Raised?);
    var tail: seq<Event> := if |Forward(o)| > 0 then [Put] else [];
    assert Iteration(o) == [ExitChecked(false)] + ([PauseChecked] + ([r] + tail));
    CountsCons(ExitChecked(false), [PauseChecked] + ([r] + tail));
    CountsCons(PauseChecked, [r] + tail);
    CountsCons(r, tail);
    if |Forward(o)| > 0 {
      CountsCons(Put, []);
    }
  }

  /**
   `check_pause` follows every low exit flag and precedes every call, a `put`
   follows only a call that returned, and nothing follows an exit. There is
   one call per iteration and one `put` per output entry.
   */
  lemma {:induction false} LoopOrder<T>(flags: seq<bool>, sample: nat -> RunOutcome<Option<T>>, k: nat)
    decreases |flags|
    ensures var ev := Loop(flags, sample, k).events;
      PauseAfterExitCheck(ev) && PauseAfterLowExit(ev) && RunAfterPause(ev) && PutAfterReturn(ev) && ExitLast(ev)
    ensures var t := Loop(flags, sample, k);
      Runs(t.events) == t.work && Puts(t.events) == |t.output|
  {
    if |flags| == 0 || flags[0] {
      FinalOrder(Loop(flags, sample, k).events);
      FinalCounts(Loop(flags, sample, k).events);
    } else {
      var it := Iteration(sample(k));
      var rest := Loop(flags[1..], sample, k + 1).events;
      assert Loop(flags, sample, k).events == it + rest;
      LoopOrder(flags[1..], sample, k + 1);
      IterationOrder(sample(k));
      IterationCounts(sample(k));
      RunsConcat(it, rest);
      PutsConcat(it, rest);
      ConcatPauseAfterExitCheck(it, rest);
      ConcatPauseAfterLowExit(it, rest);
      ConcatRunAfterPause(it, rest);
      ConcatPutAfterReturn(it, rest);
      ConcatExitLast(it, rest);
    }
  }

  /** Every sample in which an exception is replaced by the failure `(False, None)`. */
  function TameSample<T>(sample: nat -> RunOutcome<Option<T>>): nat -> RunOutcome<Option<T>>
  {
    (i: nat) => Tame(sample(i))
  }

  /** An exception from `run` puts nothing, exactly like a failed call, and the loop goes on. */
  lemma {:induction false} RaisedIsFailure<T>(flags: seq<bool>, sample: nat -> RunOutcome<Option<T>>, k: nat)
    decreases |flags|
    ensures Loop(flags, sample, k).output == Loop(flags, TameSample(sample), k).output
    ensures Loop(flags, sample, k).work == Loop(flags, TameSample(sample), k).work
  {
    if |flags| > 0 && !flags[0] {
      RaisedIsFailure(flags[1..], sample, k + 1);
    }
  }

  /** A call's outcome as the worker sees it, when the call is `Telemetry.Run` over `link`. */
  function OutcomeOf(link: seq<Telemetry.Receive>): (o: RunOutcome<Option<Telemetry.TelemetryData>>)
    ensures o.Returned? && (o.success <==> o.value.Some?)
  {
    match Telemetry.Run(link)
    case Some(d) => Returned(true, Some(d))
    case None => Returned(false, None)
  }

  lemma {:induction false} SuccessesAreRecords(sample: nat -> RunOutcome<Option<Telemetry.TelemetryData>>, k: nat, n: nat)
    requires forall i :: sample(i).Returned? && sample(i).success ==> sample(i).value.Some?
    decreases n
    ensures forall j :: 0 <= j < |Successes(sample, k, n)| ==> Successes(sample, k, n)[j].Some?
  {
    if n > 0 {
      SuccessesAreRecords(sample, k + 1, n - 1);
    }
  }

  /**
   When each iteration's call is `Telemetry.Run` (or raises), the worker never
   puts `None`, so it never sends a sentinel to the command worker by accident.
   */
  lemma OutputHasNoSentinel(loggerOk: bool, timeoutS: real, flags: seq<bool>,
                            links: nat -> seq<Telemetry.Receive>, raises: nat -> bool)
    ensures var sample := (i: nat) => if raises(i) then Raised else OutcomeOf(links(i));
      var out := Worker(loggerOk, timeoutS, flags, sample).output;
      forall j :: 0 <= j < |out| ==> out[j].Some?
  {
    var sample: nat -> RunOutcome<Option<Telemetry.TelemetryData>> :=
      (i: nat) => if raises(i) then Raised else OutcomeOf(links(i));
    forall i: nat | sample(i).Returned? && sample(i).success
      ensures sample(i).value.Some?
    {
      if !raises(i) {
        assert sample(i) == OutcomeOf(links(i));
      }
    }
    if loggerOk {
      SuccessesAreRecords(sample, 0, FirstExit(flags));
    }
  }
}

=== FILE: test_command.dfy ===
/**
 The command worker's integration test: `put_queue` feeds telemetry records
 and a sentinel to the worker, `read_queue` logs what the worker puts on its
 output queue, `stop` ends the worker, and `main` first retries the
 connection to the mock drone a bounded number of times.

 A queue read is modelled as the sequence of results of its `get` calls:
 `Some(item)` when the call returned `item`, `None` when it raised (the
 timeout). The thread timing is not modelled: when the timer's `stop` fires
 is part of the worker's exit-flag observations.
 */
module TestCommand {

  import opened Wrappers
  import opened Controller
  import opened WorkerLoop
  import CommandWorker

  /** How many times `main` tries to open the connection to the mock drone. */
  const ConnectAttempts: nat := 10

  /** `put_queue`: every item, in list order, followed by exactly one `None` sentinel. */
  function PutQueue<T>(items: seq<T>): (q: seq<Option<T>>)
    ensures |q| == |items| + 1
    ensures forall i :: 0 <= i < |items| ==> q[i] == Some(items[i])
    ensures q[|items|] == None
  {
    if |items| == 0 then [None] else [Some(items[0])] + PutQueue(items[1..])
  }

  /** The sentinel is the first `None` a reader meets, and the values before it are the items. */
  lemma {:induction false} PutQueueSentinel<T>(items: seq<T>)
    ensures FirstNone(PutQueue(items)) == |items|
    ensures Present(PutQueue(items)) == items
  {
    if |items| > 0 {
      PutQueueSentinel(items[1..]);
      assert PutQueue(items) == [Some(items[0])] + PutQueue(items[1..]);
      assert PutQueue(items)[1..] == PutQueue(items[1..]);
      PresentConcat([Some(items[0])], PutQueue(items[1..]));
      assert items == [items[0]] + items[1..];
    }
  }

  /** What `read_queue` did: the items it logged and whether it returned. */
  datatype Reading<T> = Reading(logged: seq<T>, returned: bool)

  /**
   `read_queue`: logs every item its gets return, skipping a `None` item and
   carrying on, and returns at the first get that raises. When `gets` runs
   out the reader is still waiting.
   */
  function ReadQueue<T>(gets: seq<Option<Option<T>>>): (r: Reading<T>)
    ensures r.returned <==> FirstNone(gets) < |gets|
    ensures r.logged == Present(Present(gets[..FirstNone(gets)]))
  {
    if |gets| == 0 then Reading([], false)
    else if gets[0].None? then
      assert gets[..0] == [];
      Reading([], true)
    else
      var rest := ReadQueue(gets[1..]);
      var n := FirstNone(gets[1..]);
      assert gets[..1 + n] == [gets[0]] + gets[1..][..n];
      PresentConcat([gets[0]], gets[1..][..n]);
      PresentConcat([gets[0].value], Present(gets[1..][..n]));
      Reading((if gets[0].value.Some? then [gets[0].value.value] else []) + rest.logged, rest.returned)
  }

  /** A `None` item is skipped: reading it changes nothing the reader logs or does. */
  lemma SentinelSkipped<T>(gets: seq<Option<Option<T>>>)
    ensures ReadQueue([Some(None)] + gets) == ReadQueue(gets)
  {
    assert ([Some(None)] + gets)[1..] == gets;
  }

  /** The reader returns at the first failed get: nothing after it is read. */
  lemma {:induction false} StopsAtFailure<T>(before: seq<Option<Option<T>>>, after: seq<Option<Option<T>>>)
    ensures ReadQueue(before + [None] + after) == ReadQueue(before + [None])
  {
    if |before| == 0 {
      assert (before + [None] + after)[0] == None;
      assert (before + [None])[0] == None;
    } else {
      assert (before + [None] + after)[0] == before[0] && (before + [None])[0] == before[0];
      assert (before + [None] + after)[1..] == before[1..] + [None] + after;
      assert (before + [None])[1..] == before[1..] + [None];
      StopsAtFailure(before[1..], after);
    }
  }

  /** The gets of a reader that finds `q`'s entries one after the other. */
  function Delivered<T>(q: seq<T>): (g: seq<Option<T>>)
    ensures |g| == |q|
    ensures forall i :: 0 <= i < |q| ==> g[i] == Some(q[i])
  {
    seq(|q|, i requires 0 <= i < |q| => Some(q[i]))
  }

  lemma {:induction false} PresentDelivered<T>(q: seq<T>)
    ensures Present(Delivered(q)) == q
  {
    if |q| > 0 {
      assert Delivered(q) == [Some(q[0])] + Delivered(q[1..]);
      PresentConcat([Some(q[0])], Delivered(q[1..]));
      PresentDelivered(q[1..]);
      assert q == [q[0]] + q[1..];
    }
  }

  /** A reader that finds every entry of `q` and then times out logs the present ones and returns. */
  lemma ReadAll<T>(q: seq<Option<T>>)
    ensures ReadQueue(Delivered(q) + [None]) == Reading(Present(q), true)
  {
    var gets := Delivered(q) + [None];
    assert gets[|q|] == None;
    assert forall i :: 0 <= i < |q| ==> gets[i].Some?;
    assert FirstNone(gets) == |q|;
    assert gets[..|q|] == Delivered(q);
    PresentDelivered(q);
  }

  /** Round trip: reading back what `put_queue` put yields the items, in order, without the sentinel. */
  lemma ReadsWhatWasPut<T>(items: seq<T>)
    ensures ReadQueue(Delivered(PutQueue(items)) + [None]) == Reading(items, true)
  {
    ReadAll(PutQueue(items));
    PutQueueSentinel(items);
  }

  /**
   Reading the command worker's output queue until it stays empty logs
   everything the worker put, in order.
   */
  lemma ReadsWorkerOutput<D, O>(loggerOk: bool, commandOk: bool, flags: seq<bool>, input: seq<Option<D>>,
                                run: (nat, D) -> RunOutcome<Option<O>>)
    ensures var output := CommandWorker.Worker(loggerOk, commandOk, flags, input, run).output;
      ReadQueue(Delivered(Delivered(output)) + [None]) == Reading(output, true)
  {
    var output := CommandWorker.Worker(loggerOk, commandOk, flags, input, run).output;
    ReadAll(Delivered(output));
    PresentDelivered(output);
  }

  /** `stop`: requests exit on the controller and does nothing else. */
  function Stop(c: Controller): (r: Controller)
    ensures r.exitRequested
    ensures r.paused == c.paused
    ensures ClearExit(r) == ClearExit(c)
  {
    RequestExit(c)
  }

  /**
   Connection attempts `i`, `i + 1`, ... up to `ConnectAttempts`: attempt `j`
   raises when `raises(j)`. Returns the attempt that connected, or `None`
   when all of them raised.
   */
  function ConnectFrom(raises: nat -> bool, i: nat): (r: Option<nat>)
    requires i <= ConnectAttempts
    decreases ConnectAttempts - i
    ensures r.Some? ==> i <= r.value < ConnectAttempts && !raises(r.value)
    ensures r.Some? ==> forall j :: i <= j < r.value ==> raises(j)
    ensures r.None? <==> forall j :: i <= j < ConnectAttempts ==> raises(j)
  {
    if i == ConnectAttempts then None
    else if !raises(i) then Some(i)
    else ConnectFrom(raises, i + 1)
  }

  /** The number of connection attempts `main` makes: it stops at the first that does not raise. */
  function Attempts(raises: nat -> bool): (n: nat)
    ensures 0 < n <= ConnectAttempts
    ensures !raises(n - 1) <==> ConnectFrom(raises, 0).Some?
    ensures forall j :: 0 <= j < n - 1 ==> raises(j)
  {
    var r := ConnectFrom(raises, 0);
    if r.Some? then r.value + 1 else ConnectAttempts
  }

  /**
   What the test's `main` did: its return code, or `None` while it is still
   inside `command_worker`, and, when it got that far, the worker's run.
   */
  datatype TestRun<O> = TestRun(code: Option<int>, worker: Option<Trace<O>>)

  /**
   The test's `main`: set up the configuration and the logger, connect to
   the mock drone, then run `command_worker` on the queue `put_queue` fills
   with `path`, and return 0 once the worker returns. `workerLoggerOk` and
   `commandOk` are the worker's own setup results; `flags` are its exit
   checks, the last ones after `stop` fired.
   */
  function TestMain<D, O>(configOk: bool, loggerOk: bool, raises: nat -> bool,
                          workerLoggerOk: bool, commandOk: bool, flags: seq<bool>,
                          path: seq<D>, run: (nat, D) -> RunOutcome<Option<O>>): (r: TestRun<O>)
    ensures r.code.Some? ==> r.code.value == 0 || r.code.value == -1
    ensures r.code == Some(-1) <==> !configOk || !loggerOk || forall j :: 0 <= j < ConnectAttempts ==> raises(j)
    ensures r.worker.Some? <==> r.code != Some(-1)
    ensures r.worker.Some? ==>
      r.worker.value == CommandWorker.Worker(workerLoggerOk, commandOk, flags, PutQueue(path), run)
    ensures r.code == Some(0) <==> r.worker.Some? && r.worker.value.state.Exited?
    ensures r.code.None? <==> r.worker.Some? && r.worker.value.state == Running
  {
    if !configOk || !loggerOk then TestRun(Some(-1), None)
    else if ConnectFrom(raises, 0).None? then TestRun(Some(-1), None)
    else
      var t := CommandWorker.Worker(workerLoggerOk, commandOk, flags, PutQueue(path), run);
      TestRun(if t.state.Exited? then Some(0) else None, Some(t))
  }

  /** The command worker on a queue whose only sentinel is its last entry. */
  lemma SentinelLast<D, O>(q: seq<Option<D>>, flags: seq<bool>, run: (nat, D) -> RunOutcome<Option<O>>)
    requires 0 < |q| && FirstNone(q) == |q| - 1
    ensures var t := CommandWorker.Loop(flags, q, run, 0);
      var f := FirstExit(flags);
      && (|q| - 1 < f ==> t.state == Exited(SentinelRead) && t.work == |q|)
      && (f <= |q| - 1 ==> t.work == f && t.state == (if f < |flags| then Exited(ExitRequested) else Running))
  {
    var t := CommandWorker.Loop(flags, q, run, 0);
    LastSentinelCases(t.state, t.work, FirstExit(flags), |q| - 1, |flags|);
  }

  /**
   The case split behind `SentinelLast`, on the loop's stated facts alone,
   with `n` the index of the last entry. It exists only to split the cases on
   the final state for `SentinelLast`; the empty match arms are that split.
   */
  lemma LastSentinelCases(st: State, w: nat, f: nat, n: nat, m: nat)
    requires f <= m
    requires st == Exited(SentinelRead) <==> n < f
    requires st == Exited(ExitRequested) <==> f < m && f <= n
    requires st != Exited(SetupFailed)
    requires w == (if n < f then n + 1 else CommandWorker.Min(f, n))
    ensures n < f ==> st == Exited(SentinelRead) && w == n + 1
    ensures f <= n ==> w == f && st == (if f < m then Exited(ExitRequested) else Running)
  {
    match st {
      case Running =>
      case Exited(c) =>
        match c {
          case ExitRequested =>
          case SentinelRead =>
          case SetupFailed =>
        }
    }
  }

  /**
   Feeding `put_queue`'s output to the command worker: when the exit flag is
   not seen before the sentinel, the worker reads every path item in order,
   then the sentinel, and stops there; otherwise it reads the items before
   the first raised flag and nothing else.
   */
  lemma PathConsumedInOrder<D, O>(path: seq<D>, flags: seq<bool>, run: (nat, D) -> RunOutcome<Option<O>>)
    ensures var t := CommandWorker.Loop(flags, PutQueue(path), run, 0);
      var f := FirstExit(flags);
      && t.output == CommandWorker.Forwarded(PutQueue(path)[..t.work], run, 0)
      && (|path| < f ==> t.state == Exited(SentinelRead) && t.work == |path| + 1)
      && (f <= |path| ==> t.work == f && t.state == (if f < |flags| then Exited(ExitRequested) else Running))
  {
    PutQueueSentinel(path);
    SentinelLast(PutQueue(path), flags, run);
  }

  /**
   Once connected, the test returns 0 exactly when the worker returns: its
   setup failed, it read the sentinel before seeing the exit flag, or it saw
   the exit flag raised by `stop`. Otherwise it is still in `command_worker`.
   */
  lemma TestReturns<D, O>(raises: nat -> bool, workerLoggerOk: bool, commandOk: bool, flags: seq<bool>,
                          path: seq<D>, run: (nat, D) -> RunOutcome<Option<O>>)
    requires exists j :: 0 <= j < ConnectAttempts && !raises(j)
    ensures var f := FirstExit(flags);
      TestMain(true, true, raises, workerLoggerOk, commandOk, flags, path, run).code == Some(0) <==>
        !(workerLoggerOk && commandOk) || |path| < f || f < |flags|
  {
    PathConsumedInOrder(path, flags, run);
  }
}

=== FILE: worker_loop.dfy ===
/**
 The vocabulary shared by the four worker loops. Every worker runs
 `while not controller.is_exit_requested(): controller.check_pause(); <one unit of work>`.
 A run of a worker is described by the events it performs, what it put on its
 output queue, how many units of work it started and the state it ends in.
 */
module WorkerLoop {

  import opened Wrappers

  /** What a worker does, in the order it does it. */
  datatype Event =
    | ExitChecked(requested: bool)  // `is_exit_requested()` and what it returned
    | PauseChecked                  // `check_pause()` returned
    | Got(sentinel: bool)           // `get()` on the input queue, and whether it read the sentinel
    | Ran(raised: bool)             // one call to the unit of work, and whether it raised
    | Put                           // one `put()` on the output queue
    | Slept                         // the sender's sleep between heartbeats

  /** Why a worker function returned. */
  datatype Cause = ExitRequested | SentinelRead | SetupFailed

  /** RUNNING until the function returns, then EXITED (terminal). */
  datatype State = Running | Exited(cause: Cause)

  /** One call to `run`: the `(success, value)` pair it returned, or an exception. */
  datatype RunOutcome<T> = Returned(success: bool, value: T) | Raised

  /**
   A worker's run: its events, its output queue's contents, the number of
   units of work it started, and its state at the end of the observation.
   */
  datatype Trace<O> = Trace(events: seq<Event>, output: seq<O>, work: nat, state: State)

  /** The start of every iteration: the exit check found the flag low, then the pause check. */
  const Prologue: seq<Event> := [ExitChecked(false), PauseChecked]

  /** An outcome with an exception replaced by the failure `(False, None)`; a returned outcome is kept. */
  function Tame<T>(o: RunOutcome<Option<T>>): (r: RunOutcome<Option<T>>)
    ensures r.Returned?
    ensures o.Raised? ==> r == Returned(false, None)
    ensures o.Returned? ==> r == o
  {
    if o.Raised? then Returned(false, None) else o
  }

  /** What a worker whose setup failed did: nothing. */
  function SetupFailure<O>(): (r: Trace<O>)
    ensures r.state == Exited(SetupFailed)
    ensures r.events == [] && r.output == [] && r.work == 0
  {
    Trace([], [], 0, Exited(SetupFailed))
  }

  /** The index of the first `None` (the sentinel) in a queue's contents, or its length. */
  function FirstNone<T>(s: seq<Option<T>>): (n: nat)
    ensures n <= |s|
    ensures forall i :: 0 <= i < n ==> s[i].Some?
    ensures n < |s| ==> s[n].None?
  {
    if |s| == 0 || s[0].None? then 0 else 1 + FirstNone(s[1..])
  }

  /** Every pause check directly follows an exit check that found the flag low. */
  predicate PauseAfterExitCheck(ev: seq<Event>)
  {
    forall k :: 0 <= k < |ev| && ev[k] == PauseChecked ==> 0 < k && ev[k - 1] == ExitChecked(false)
  }

  /** Every exit check that found the flag low is directly followed by a pause check. */
  predicate PauseAfterLowExit(ev: seq<Event>)
  {
    forall k :: 0 <= k < |ev| && ev[k] == ExitChecked(false) ==> k + 1 < |ev| && ev[k + 1] == PauseChecked
  }

  /** Every `get` directly follows a pause check. */
  predicate GetAfterPause(ev: seq<Event>)
  {
    forall k :: 0 <= k < |ev| && ev[k].Got? ==> 0 < k && ev[k - 1] == PauseChecked
  }

  /** Every unit of work directly follows a pause check. */
  predicate RunAfterPause(ev: seq<Event>)
  {
    forall k :: 0 <= k < |ev| && ev[k].Ran? ==> 0 < k && ev[k - 1] == PauseChecked
  }

  /** Every unit of work directly follows a `get` that read an item. */
  predicate RunAfterGet(ev: seq<Event>)
  {
    forall k :: 0 <= k < |ev| && ev[k].Ran? ==> 0 < k && ev[k - 1] == Got(false)
  }

  /** Every `put` directly follows a unit of work that returned without raising. */
  predicate PutAfterReturn(ev: seq<Event>)
  {
    forall k :: 0 <= k < |ev| && ev[k] == Put ==> 0 < k && ev[k - 1] == Ran(false)
  }

  /** Every unit of work, raising or not, is directly followed by `e`. */
  predicate NextAfterRun(ev: seq<Event>, e: Event)
  {
    forall k :: 0 <= k < |ev| && ev[k].Ran? ==> k + 1 < |ev| && ev[k + 1] == e
  }

  /** Every `e` directly follows a unit of work, raising or not. */
  predicate AfterRun(ev: seq<Event>, e: Event)
  {
    forall k :: 0 <= k < |ev| && ev[k] == e ==> 0 < k && ev[k - 1].Ran?
  }

  /** An exit check that found the flag raised is the last thing the worker does. */
  predicate ExitLast(ev: seq<Event>)
  {
    forall k :: 0 <= k < |ev| && ev[k] == ExitChecked(true) ==> k == |ev| - 1
  }

  /** The number of units of work started in `ev`. */
  function Runs(ev: seq<Event>): nat
  {
    if |ev| == 0 then 0 else (if ev[0].Ran? then 1 else 0) + Runs(ev[1..])
  }

  lemma {:induction false} RunsConcat(a: seq<Event>, b: seq<Event>)
    ensures Runs(a + b) == Runs(a) + Runs(b)
  {
    if |a| > 0 {
      assert (a + b)[0] == a[0];
      assert (a + b)[1..] == a[1..] + b;
      RunsConcat(a[1..], b);
    } else {
      assert a + b == b;
    }
  }

  /** The number of `put`s in `ev`. */
  function Puts(ev: seq<Event>): nat
  {
    if |ev| == 0 then 0 else (if ev[0] == Put then 1 else 0) + Puts(ev[1..])
  }

  lemma {:induction false} PutsConcat(a: seq<Event>, b: seq<Event>)
    ensures Puts(a + b) == Puts(a) + Puts(b)
  {
    if |a| > 0 {
      assert (a + b)[0] == a[0];
      assert (a + b)[1..] == a[1..] + b;
      PutsConcat(a[1..], b);
    } else {
      assert a + b == b;
    }
  }

  /** Counting the first event of a sequence. */
  lemma CountsCons(e: Event, ev: seq<Event>)
    ensures Runs([e] + ev) == (if e.Ran? then 1 else 0) + Runs(ev)
    ensures Puts([e] + ev) == (if e == Put then 1 else 0) + Puts(ev)
  {
    assert ([e] + ev)[1..] == ev;
  }

  /** The order properties of the traces that end a loop: nothing, an exit, a blocked `get`, a sentinel. */
  lemma FinalOrder(ev: seq<Event>)
    requires ev == [] || ev == [ExitChecked(true)] || ev == Prologue || ev == Prologue + [Got(true)]
    ensures PauseAfterExitCheck(ev) && GetAfterPause(ev) && RunAfterPause(ev) && RunAfterGet(ev)
    ensures PutAfterReturn(ev) && ExitLast(ev)
    ensures forall e :: NextAfterRun(ev, e)
  {
    if ev == Prologue + [Got(true)] {
      assert ev == [ExitChecked(false), PauseChecked, Got(true)];
    }
  }

  /**
   The traces that end a loop hold no unit of work and no `put`, and their
   low exit check, if any, is followed by a pause check.
   */
  lemma FinalCounts(ev: seq<Event>)
    requires ev == [] || ev == [ExitChecked(true)] || ev == Prologue || ev == Prologue + [Got(true)]
    ensures Runs(ev) == 0 && Puts(ev) == 0
    ensures PauseAfterLowExit(ev) && AfterRun(ev, Put) && AfterRun(ev, Slept)
  {
    if ev == [ExitChecked(true)] {
      CountsCons(ExitChecked(true), []);
    } else if ev == Prologue {
      assert ev == [ExitChecked(false)] + [PauseChecked];
      CountsCons(ExitChecked(false), [PauseChecked]);
      CountsCons(PauseChecked, []);
    } else if ev != [] {
      assert ev == [ExitChecked(false)] + ([PauseChecked] + [Got(true)]);
      CountsCons(ExitChecked(false), [PauseChecked] + [Got(true)]);
      CountsCons(PauseChecked, [Got(true)]);
      CountsCons(Got(true), []);
    }
  }

  /**
   The event-order properties survive putting one more complete iteration in
   front: every look-back or look-ahead stays inside one of the two parts.
   */
  lemma ConcatIndex(a: seq<Event>, b: seq<Event>)
    ensures forall k :: |a| <= k < |a + b| ==> (a + b)[k] == b[k - |a|]
    ensures forall k :: 0 <= k < |a| ==> (a + b)[k] == a[k]
  {
  }

  lemma ConcatPauseAfterExitCheck(a: seq<Event>, b: seq<Event>)
    requires PauseAfterExitCheck(a) && PauseAfterExitCheck(b)
    ensures PauseAfterExitCheck(a + b)
  {
    ConcatIndex(a, b);
  }

  lemma ConcatGetAfterPause(a: seq<Event>, b: seq<Event>)
    requires GetAfterPause(a) && GetAfterPause(b)
    ensures GetAfterPause(a + b)
  {
    ConcatIndex(a, b);
  }

  lemma ConcatRunAfterPause(a: seq<Event>, b: seq<Event>)
    requires RunAfterPause(a) && RunAfterPause(b)
    ensures RunAfterPause(a + b)
  {
    ConcatIndex(a, b);
  }

  lemma ConcatRunAfterGet(a: seq<Event>, b: seq<Event>)
    requires RunAfterGet(a) && RunAfterGet(b)
    ensures RunAfterGet(a + b)
  {
    ConcatIndex(a, b);
  }

  lemma ConcatPutAfterReturn(a: seq<Event>, b: seq<Event>)
    requires PutAfterReturn(a) && PutAfterReturn(b)
    ensures PutAfterReturn(a + b)
  {
    ConcatIndex(a, b);
  }

  lemma ConcatNextAfterRun(a: seq<Event>, b: seq<Event>, e: Event)
    requires NextAfterRun(a, e) && NextAfterRun(b, e)
    ensures NextAfterRun(a + b, e)
  {
    ConcatIndex(a, b);
  }

  lemma ConcatPauseAfterLowExit(a: seq<Event>, b: seq<Event>)
    requires PauseAfterLowExit(a) && PauseAfterLowExit(b)
    ensures PauseAfterLowExit(a + b)
  {
    ConcatIndex(a, b);
  }

  lemma ConcatAfterRun(a: seq<Event>, b: seq<Event>, e: Event)
    requires AfterRun(a, e) && AfterRun(b, e)
    ensures AfterRun(a + b, e)
  {
    ConcatIndex(a, b);
  }

  lemma ConcatExitLast(a: seq<Event>, b: seq<Event>)
    requires ExitLast(b) && forall k :: 0 <= k < |a| ==> a[k] != ExitChecked(true)
    ensures ExitLast(a + b)
  {
    ConcatIndex(a, b);
  }
}

=== FILE: wrappers.dfy ===
/** The optional value used throughout the model: Python's `x | None`. */
module Wrappers {

  datatype Option<+T> = None | Some(value: T)

  /** The values of the present entries of `s`, in order. */
  function Present<T>(s: seq<Option<T>>): seq<T>
  {
    if |s| == 0 then [] else (if s[0].Some? then [s[0].value] else []) + Present(s[1..])
  }

  /** Collecting the present values distributes over concatenation. */
  lemma {:induction false} PresentConcat<T>(a: seq<Option<T>>, b: seq<Option<T>>)
    ensures Present(a + b) == Present(a) + Present(b)
  {
    if |a| == 0 {
      assert a + b == b;
    } else {
      assert (a + b)[0] == a[0];
      assert (a + b)[1..] == a[1..] + b;
      PresentConcat(a[1..], b);
    }
  }
}
